=== FILE: README.md ===
# Test-data generation pipelines, modelled in Dafny

The repository has two command-line generators of test data.

- **The schema-driven row generator** (`data_factory.py`) holds a fixed type table, `TYPE_GENERATORS`. It maps a field type and a case (`positive` or `negative`) to a value producer. `generate_data` fills `num_rows` records by resolving every field of every row through that table:
  - under the `mixed` policy each field draws its own case;
  - `ai_text` fields pass their stored prompt to the text service;
  - a lookup miss yields the sentinel `NO_GENERATOR_FOR_<type>_<case>`.
- **The plan-driven scenario aggregator** (`test_strategist.py`) works in four steps:
  - it asks the text service for a test plan, cleans the reply of code fences and parses it;
  - it decides how many rows to ask for per scenario, a typed integer or the service's advice, falling back to 3;
  - it asks the service for rows per scenario, tags each row with its scenario and concatenates the results;
  - it writes a full report and a data-only file, under names derived from the chosen `.csv` name.

Everything outside the programs is an explicit input of the model:
- the Faker providers, `random.choice` draws and the text service's replies are total functions, indexed by the slot or scenario that makes the call;
- `json.loads` is an arbitrary function from text to a parse outcome.

The modules:

- `Outcome`: `Option` and `Result`.
- `Service`: the outcome of one call to the text service.
- `PyText`: Python's `str.strip()`, `str.replace`, `str.endswith` and lower-casing. It also proves the facts the pipelines need about fences and the `.csv` suffix.
- `PyInt`: Python's `int(text)` and `str(n)`, with their round trip.
- `Json`: parsed JSON values, and the dictionary reads and writes both pipelines use.
- `DataFactory`: `TYPE_GENERATORS`, `generate_ai_content`, `generate_data` and the test-type menu.
- `TestStrategist`: reply cleaning, `generate_test_plan`, `get_ideal_row_count`, the rows-per-scenario decision and `generate_data_for_plan`.
- `CsvOutput`: the `.csv` suffix, the two derived file names, and the column reorder and drop of the export step.

### How the loops are modelled

Each cell of `generate_data` depends only on its slot: the position `i * width + j` of field `j` in row `i`. Each scenario of `generate_data_for_plan` likewise depends only on its index. So the model first computes every outcome:
- `DataFactory.Grid` for the cells;
- `TestStrategist.Outcomes` for the scenarios.

It then assembles the results in loop order and stops at the first error (`AssembleRows`, `Gather`). This yields exactly what the nested loops yield. The error is the one the first raising iteration raises.

### Behaviour the model records

Some consequences of the code are easy to miss, and the model states each of them as a lemma.
- An `ai_text` field under the negative case aborts `generate_data` (data_factory.py:47, 111-115). Its zero-argument producer is called with the prompt and raises a `TypeError` (`NegativeAiTextAborts`).
- `generate_test_plan` accepts a plan whose `'scenarios'` list is empty (test_strategist.py:41-43, `ZeroScenariosAccepted`). Only a missing `'scenarios'`, or a value without a length, is rejected.
- `get_ideal_row_count` returns whatever integer the service spells, zero and negative included (test_strategist.py:61-63, `IdealRowCountRoundTrip`). There is no lower bound.
- A scenario without one of its three keys aborts all of `generate_data_for_plan` (test_strategist.py:74-77, `DataForPlanAborts`). The keys are read outside the `try`.
- `int()` refuses a numeral of more than 4300 digits, Python's default limit. An advised or typed count that long falls back to 3 (`IdealRowCountRoundTrip`, `RowsTypedInteger`).

## Model

| member | source | states |
|---|---|---|
| DataFactory.OverlongName | data_factory.py:40 | the third negative name is 201 copies of `A` |
| DataFactory.Lookup | data_factory.py:108-109 | a producer is found exactly when the type is one of the seven table types and the case is `positive` or `negative` |
| DataFactory.TypeTable | data_factory.py:39-48 | the table has exactly the seven types, each with a `positive` and a `negative` producer; only positive `ai_text` takes an argument, and no choice is among no alternatives |
| DataFactory.TypeEntry | data_factory.py:40-47 | one type's row: both cases, an argument only for positive `ai_text`, and a non-empty list for each `random.choice` |
| DataFactory.PromptOf | data_factory.py:114 | the stored prompt when present, otherwise `"generate random text"` |
| DataFactory.Choice | data_factory.py:40 | `random.choice` returns a member of its list, and each member is the result of some draw |
| DataFactory.GenerateAiContent | data_factory.py:26-35 | `"AI_DISABLED"` when the client is disabled; `"AI_GENERATION_ERROR"` when the call fails; otherwise the reply with surrounding whitespace removed: an infix of the reply, only whitespace around it, neither end whitespace |
| DataFactory.Invoke | data_factory.py:111-117 | for the table's producers, where only the `ai_text` positive one takes an argument, a call raises exactly when the arity is wrong: the AI producer without a prompt, or a zero-argument producer with one (or a choice among no alternatives, which the table never has) |
| DataFactory.CaseAt | data_factory.py:106 | a policy other than `mixed` is the case verbatim; under `mixed` the case is `positive` or `negative` |
| DataFactory.MixedDraw | data_factory.py:106 | under `mixed` a slot's case is decided by its own draw alone: even picks `positive`, odd picks `negative` |
| DataFactory.SlotInverse | data_factory.py:101-106 | the row and the field can be read back from a slot |
| DataFactory.MixedReachesAnyCases | data_factory.py:101-106 | under `mixed` every assignment of cases to cells arises from some case draws, with the other oracles unchanged |
| DataFactory.Sentinel | data_factory.py:119 | the sentinel is `NO_GENERATOR_FOR_`, the type text, `_` and the case; given the case, the type text can be read back from it |
| DataFactory.GenerateField | data_factory.py:105-119 | a field raises exactly when its type is `ai_text` and its case is negative, and then with the arity error |
| DataFactory.AssembleRecord | data_factory.py:103-119 | an assembled record has one entry per field visited |
| DataFactory.AssembleRows | data_factory.py:101-120 | the assembled rows number `n`, each with one entry per schema field |
| DataFactory.RowCount | data_factory.py:101 | `range(num_rows)` runs `num_rows` times, or not at all when `num_rows <= 0` |
| DataFactory.GenerateData | data_factory.py:96-121 | a successful generation has exactly `RowCount(num_rows)` records |
| DataFactory.RecordCell | data_factory.py:104-119 | entry `k` of an assembled record is field `k`'s name with cell `k`'s value, and that cell did not raise |
| DataFactory.RecordRaisesAt | data_factory.py:104-119 | one raising cell makes its record raise |
| DataFactory.RecordRaiseWitness | data_factory.py:104-119 | a raising record raises the error of one of its cells |
| DataFactory.RowAt | data_factory.py:101-120 | row `i` of the result is the record assembled from row `i`'s cells, in generation order |
| DataFactory.RowsRaiseAt | data_factory.py:101-120 | one raising cell anywhere aborts the whole generation |
| DataFactory.RowsRaiseWitness | data_factory.py:101-120 | an aborted generation reports the error of one of its cells |
| DataFactory.AssembledCells | data_factory.py:101-120 | every field of every assembled row holds the field's name and its cell's value |
| DataFactory.GenerateDataCells | data_factory.py:98-120 | `num_rows` records (none when `num_rows <= 0`); each has the schema's field names in schema order; field `j` of row `i` is the cell of slot `i * width + j` |
| DataFactory.GenerateDataRaises | data_factory.py:101-120 | generation raises if and only if some field of some row is `ai_text` under the negative case, and the error is then the arity error |
| DataFactory.CellAdmissible | data_factory.py:39-48 | every cell that does not raise holds a value its table entry admits: the sentinel on a miss, a Faker result, the constant, one of the alternatives, or the service's stripped reply to the field's prompt |
| DataFactory.PositiveNeverRaises | data_factory.py:106-119 | under the positive policy generation never raises |
| DataFactory.NegativeAiTextAborts | data_factory.py:47 | under the negative policy, one row and one `ai_text` field abort generation with the arity error |
| DataFactory.UnknownPolicySentinels | data_factory.py:106-119 | a policy other than positive, negative or mixed never raises, and every field is `NO_GENERATOR_FOR_<type>_<policy>` |
| DataFactory.UnknownTypeSentinel | data_factory.py:108-119 | a type missing from the table, or absent (rendered `None`), gives the sentinel under every case and does not raise |
| DataFactory.AiTextPositive | data_factory.py:47 | a positive `ai_text` field holds `generate_ai_content` applied to its prompt, defaulting to `"generate random text"` |
| DataFactory.NegativeCells | data_factory.py:40-47 | the negative producers: `"not-an-email"` (no `@`), `"123"`, `"2025-99-99"`, `"not-a-uuid"`; a name in `""`, `"Name123"`, 201 × `A`; an integer in `-1`, `999.9`, `"abc"`; `ai_text` raises |
| DataFactory.PositiveFakerCells | data_factory.py:40-45 | every positive non-AI field is its Faker provider's result, unchanged |
| DataFactory.FieldsOf | data_factory.py:98 | the schema's `'fields'` when present, otherwise no fields |
| DataFactory.NoFieldsEmptyRecords | data_factory.py:98 | a schema without `'fields'` yields `num_rows` empty records |
| DataFactory.SlotsDistinct | data_factory.py:101-106 | distinct fields of distinct rows use distinct slots, so each consumes its own case draw |
| DataFactory.TestTypeOf | data_factory.py:131-132 | the menu accepts exactly the choices 1, 2 and 3 |
| DataFactory.TestTypeChoices | data_factory.py:131-132 | the three choices name the three policies, each once |
| PyText.TrimStart | test_strategist.py:40 | `lstrip()` drops the longest all-whitespace prefix |
| PyText.TrimEnd | test_strategist.py:40 | `rstrip()` drops the longest all-whitespace suffix |
| PyText.Strip | test_strategist.py:40 | `strip()` gives an infix with only whitespace around it and no whitespace at either end |
| PyText.StripChars | test_strategist.py:40 | stripping introduces no character |
| PyText.TrimStartSpaces | test_strategist.py:40 | `lstrip()` removes exactly the whitespace in front of text that starts with a non-space |
| PyText.TrimEndSpaces | test_strategist.py:40 | `rstrip()` removes exactly the whitespace after text that ends with a non-space |
| PyText.StripAround | test_strategist.py:40 | `strip()` removes exactly the whitespace around text that has none at either end |
| PyText.StripUnchanged | test_strategist.py:61 | a string without whitespace at either end is its own strip |
| PyText.ReplaceAll | test_strategist.py:89 | `str.replace` introduces no character outside the text and the replacement |
| PyText.ReplaceSkip | test_strategist.py:40 | text in which the pattern cannot start is copied, and the scan goes on after it |
| PyText.ReplaceAbsent | test_strategist.py:40 | replacing a pattern whose first character is absent changes nothing |
| PyText.RemoveFenceKeepsHead | test_strategist.py:40 | removing fences keeps a first character that is not a backtick |
| PyText.RemoveFenceNoDoubleHead | test_strategist.py:40 | removing fences cannot create a leading pair of backticks |
| PyText.RemoveFenceLeavesNone | test_strategist.py:40 | after one replace-all of "```" none is left |
| PyText.CsvNoSelfOverlap | test_strategist.py:128 | `.csv` cannot overlap itself |
| PyText.ReplaceCsvKeepsSuffix | test_strategist.py:128 | replacing `.csv` in a name that ends with `.csv` yields a name that ends with the replacement |
| PyText.ReplaceCsvFirst | test_strategist.py:128 | the first `.csv` is replaced and the scan resumes after it |
| PyText.ReplaceCsvOnlySuffix | test_strategist.py:128 | when `.csv` occurs only as the suffix, replacing gives the stem plus the replacement |
| PyText.AsciiLowerChar | test_strategist.py:111 | upper-case ASCII letters map to lower case; every other character is unchanged |
| PyText.AsciiLower | test_strategist.py:111 | lower-casing is character by character and keeps the length |
| PyInt.DigitChar | test_strategist.py:61 | the digit character of a digit value reads back as that value |
| PyInt.DigitCount | test_strategist.py:61 | every character is counted exactly when all are digits, so an underscore or a sign is not counted |
| PyInt.DigitCountAppend | test_strategist.py:61 | the digits of two stretches of text are counted separately |
| PyInt.UnderscoreNotCounted | test_strategist.py:61 | an underscore between digits does not count towards the 4300-digit limit |
| PyInt.SignNotCounted | test_strategist.py:61 | a leading sign does not count towards the digit limit |
| PyInt.AllDigitsCount | test_strategist.py:61 | every character of a string of digits counts towards the digit limit |
| PyInt.IntTrimStart | test_strategist.py:61 | `int()` skips the longest prefix of the characters it treats as whitespace: C `isspace` below 128, `str.isspace` from 128 up |
| PyInt.IntTrimEnd | test_strategist.py:61 | `int()` skips the longest suffix of the characters it treats as whitespace: C `isspace` below 128, `str.isspace` from 128 up |
| PyInt.IntSpaceIsSpace | test_strategist.py:61 | every character `int()` skips is one `str.strip()` removes |
| PyInt.SeparatorsNotSkipped | test_strategist.py:61 | the separators U+001C to U+001F, which `str.strip()` removes, are never skipped by `int()` |
| PyInt.IntTextUnchanged | test_strategist.py:61 | `int()` reads text with no whitespace at either end as it is |
| PyInt.IntTextOfStripped | test_strategist.py:61 | after `strip()` there is nothing left for `int()` to skip |
| PyInt.ParseInt | test_strategist.py:61 | `int()` succeeds exactly when the text between the skipped whitespace is digits, or a sign and digits, with single underscores between digits and at most 4300 digits; a negative result comes from a leading minus (the value of each spelling is fixed by the lemmas below) |
| PyInt.ReadNumeral | test_strategist.py:61 | a numeral is accepted exactly when it is digits, or a sign and digits, with at most 4300 digits; a negative value comes from a leading minus |
| PyInt.NatDigits | test_strategist.py:61 | the digits of a natural number are well formed and have no leading zero |
| PyInt.NatDigitsValue | test_strategist.py:61 | the digits of `n` read back as `n` |
| PyInt.ParseDigits | test_strategist.py:61 | `int()` reads a string of digits as its value exactly when there are at most 4300 of them |
| PyInt.UnsignedNumeral | test_strategist.py:61 | a numeral that starts with a digit reads as the value of its digits, or is refused |
| PyInt.MinusNumeral | test_strategist.py:61 | a numeral after a minus sign reads as its negated value, or is refused |
| PyInt.PlusNumeral | test_strategist.py:61 | a numeral after a plus sign reads as the same numeral without it |
| PyInt.IntTrimEndAfter | test_strategist.py:61 | characters in front of text that starts with a non-skipped character are kept when `int()` trims the end |
| PyInt.ParsePlus | test_strategist.py:61 | `int("+" + s)` equals `int(s)` when `s` starts with a digit |
| PyInt.UnderscoreValue | test_strategist.py:61 | an underscore between digits leaves the value unchanged, so `1_0` reads as 10 |
| PyInt.LeadingZeroValue | test_strategist.py:61 | a leading zero leaves the value unchanged, so `05` reads as 5 |
| PyInt.MinusText | test_strategist.py:61 | a minus sign followed by digits has nothing for `int()` to skip |
| PyInt.ParseMinusDigits | test_strategist.py:61 | `int()` reads a minus sign and digits as the negated value exactly when there are at most 4300 digits |
| PyInt.ShowIntStripped | test_strategist.py:61 | the spelling of an integer has nothing to strip |
| PyInt.ParseShowInt | test_strategist.py:61 | `int(str(n)) == n` exactly when `n` has at most 4300 digits; a longer spelling raises |
| Json.Keys | test_strategist.py:75-77 | the keys of a dictionary, one per entry, in order |
| Json.Get | test_strategist.py:75-77 | a lookup succeeds exactly when the key is present |
| Json.GetEntry | test_strategist.py:75-77 | the value found is the one stored in the key's first entry |
| Json.Put | test_strategist.py:92-93 | after `d[k] = v`, `k` maps to `v`, other keys keep their values, and `k` is appended to the keys unless already present |
| TestStrategist.CleanReply | test_strategist.py:40 | the cleaned reply contains no "```" |
| TestStrategist.CleanFencedJson | test_strategist.py:40 | a reply of whitespace, "```json", a body without backticks, "```" and whitespace cleans to exactly the body |
| TestStrategist.UnfenceJson | test_strategist.py:40 | removing "```json" from a fenced body leaves the body and the closing fence |
| TestStrategist.DropClosingFence | test_strategist.py:40 | removing "```" leaves the body without its closing fence |
| TestStrategist.CleanReplyNoBacktick | test_strategist.py:40 | text with no backtick is only trimmed |
| TestStrategist.GenerateTestPlan | test_strategist.py:38-46 | a plan is returned exactly when the call succeeds, the cleaned reply parses, and the parsed value is a dictionary whose `'scenarios'` has a length; the plan is returned unchanged |
| TestStrategist.ZeroScenariosAccepted | test_strategist.py:41-43 | a plan with an empty `'scenarios'` list is accepted as it is |
| TestStrategist.RejectedPlans | test_strategist.py:38-46 | a service failure, a parse failure, or a parsed value that is not a dictionary gives `None` |
| TestStrategist.GetIdealRowCount | test_strategist.py:59-66 | the value `int()` reads from the trimmed reply; 3 when the service fails or `int()` raises, because the reply is not an integer or has more than 4300 digits |
| TestStrategist.IdealRowCountRoundTrip | test_strategist.py:61-66 | any integer of at most 4300 digits the service spells is used unchanged, with no lower bound; a longer one falls back to 3 |
| TestStrategist.RowsPerScenario | test_strategist.py:110-118 | a keyword asks the advisor; otherwise the value of what was typed, or 3 when `int()` refuses it |
| TestStrategist.AsksAdvisor | test_strategist.py:111 | the lower-cased input is compared with `ideal`, `ai` and `auto`, so only inputs of 2, 4 or 5 characters ask the advisor |
| TestStrategist.LowerIsWord | test_strategist.py:111 | lower-casing gives a lower-case word exactly when the text spells it with any letters in upper case |
| TestStrategist.AdvisorKeywords | test_strategist.py:111 | the advisor is asked exactly for `ideal`, `ai` or `auto` in any letter case |
| TestStrategist.RowsTypedInteger | test_strategist.py:114-118 | a typed integer of at most 4300 digits is used as it is, whatever its sign; a longer one falls back to 3 |
| TestStrategist.IntegerIsNoKeyword | test_strategist.py:111 | the text of an integer is never a keyword |
| TestStrategist.ScenarioItems | test_strategist.py:72-74 | the loop starts exactly when the plan is a dictionary whose `'scenarios'` is a list, a dictionary or a string, and runs over the list's items, the dictionary's keys or the string's characters; otherwise `AttributeError`, `KeyError` or `TypeError` |
| TestStrategist.ReadScenario | test_strategist.py:75-77 | reading a scenario succeeds exactly when it is a dictionary with all three keys, and yields their values |
| TestStrategist.Tag | test_strategist.py:91-93 | a tagged row maps `scenario_name` and `test_type` to the scenario's values and keeps every other key's value |
| TestStrategist.ScenarioRows | test_strategist.py:90-94 | a list adds all its items, each tagged, exactly when every item is a dictionary; an empty dictionary or string adds nothing; every row added is tagged |
| TestStrategist.Contribution | test_strategist.py:87-96 | a failed call or a failed parse adds nothing; a parsed reply adds what tagging it adds; every row added carries the scenario's tags |
| TestStrategist.ScenarioOutcome | test_strategist.py:74-96 | one pass aborts the loop exactly when reading the scenario's keys fails |
| TestStrategist.Gather | test_strategist.py:74-96 | the loop completes exactly when no pass aborts |
| TestStrategist.GenerateDataForPlan | test_strategist.py:68-99 | a plan without iterable `'scenarios'` raises its error; otherwise the call completes exactly when every scenario has its three keys; no scenarios give no rows |
| TestStrategist.OutcomesOk | test_strategist.py:74-77 | a pass aborts exactly when its scenario's keys cannot be read |
| TestStrategist.GatherAbortsAt | test_strategist.py:74-96 | an aborting pass aborts the whole loop |
| TestStrategist.GatherAbortWitness | test_strategist.py:74-96 | an aborted loop reports one pass's error |
| TestStrategist.GatherInOrder | test_strategist.py:94 | rows accumulate in scenario order: the rows of earlier scenarios are a prefix of the rows of later ones |
| TestStrategist.GatherRowOrigin | test_strategist.py:94 | every gathered row comes from one pass |
| TestStrategist.ConcatSnoc | test_strategist.py:94 | joining one more list at the end appends it |
| TestStrategist.ConcatHolds | test_strategist.py:94 | every row of every list is in the join |
| TestStrategist.Parts | test_strategist.py:94 | the rows of each outcome, in scenario order |
| TestStrategist.GatherConcat | test_strategist.py:74-96 | a completed loop returns the rows of every pass, joined in order |
| TestStrategist.DataForPlanAborts | test_strategist.py:74-77 | `generate_data_for_plan` raises if and only if `'scenarios'` is not iterable or some scenario lacks a key; no service reply can make it raise |
| TestStrategist.Added | test_strategist.py:87-96 | a scenario with readable keys adds the rows of its `try`, none when it fails |
| TestStrategist.DataForPlanConcat | test_strategist.py:74-99 | a successful call returns exactly the rows each scenario adds, joined in scenario order |
| TestStrategist.DataForPlanKeepsRows | test_strategist.py:74-99 | every row any scenario adds is returned |
| TestStrategist.DataForPlanRowOrigin | test_strategist.py:74-99 | every output row was returned by the service for one scenario and carries that scenario's name and test type |
| TestStrategist.EmptyListAddsNothing | test_strategist.py:90-94 | a reply holding an empty list adds no row |
| TestStrategist.FailedScenarioNeutral | test_strategist.py:87-96 | a scenario whose `try` fails adds nothing, and every other scenario contributes as before |
| TestStrategist.ExportHasTags | test_strategist.py:124-136 | when the frame is not empty, so that the export runs, the reorder and the drop find both tag columns |
| CsvOutput.EnsureCsv | test_strategist.py:121-122 | the name ends with `.csv`: unchanged if it did, otherwise `.csv` appended |
| CsvOutput.EnsureCsvIdempotent | data_factory.py:134-135 | adding the suffix twice is adding it once |
| CsvOutput.FullReportName | test_strategist.py:128 | a name ending with `.csv` derives a name ending with `_full_report.csv` |
| CsvOutput.DataOnlyName | test_strategist.py:135 | a name ending with `.csv` derives a name ending with `_data_only.csv` |
| CsvOutput.DerivedNamesSuffix | test_strategist.py:128-135 | both derived names end with `_full_report.csv` and `_data_only.csv`, whatever was typed |
| CsvOutput.DerivedNamesExact | test_strategist.py:120-135 | a name whose only `.csv` is its suffix, with or without it typed, derives exactly stem + `_full_report.csv` and stem + `_data_only.csv` |
| CsvOutput.DerivedNamesReplaceEvery | test_strategist.py:128-135 | a `.csv` inside the typed name is replaced as well |
| CsvOutput.Without | test_strategist.py:130 | the columns kept are exactly those not dropped |
| CsvOutput.WithoutAppend | test_strategist.py:130 | dropping from two stretches of columns is dropping from each, so the kept columns stay in their order |
| CsvOutput.WithoutSingle | test_strategist.py:130 | a single column is dropped exactly when it is in the drop list |
| CsvOutput.FullReportColumns | test_strategist.py:129-130 | the reorder succeeds exactly when both tags are columns, and puts them first |
| CsvOutput.DataOnlyColumns | test_strategist.py:136 | the drop succeeds exactly when both tags are columns, and keeps every other column |
| CsvOutput.Only | test_strategist.py:130 | the columns picked are exactly those in the drop list |
| CsvOutput.WithoutMultiset | test_strategist.py:130 | the columns kept and the columns dropped together are the original columns |
| CsvOutput.OnlyTags | test_strategist.py:129-130 | distinct columns hold each tag once |
| CsvOutput.ReportColumns | test_strategist.py:129-136 | the full report is the two tags followed by the data-only columns, and is a permutation of the original columns; the data-only columns keep the original order, split at any point |

## Left out

- Module-level configuration: `load_dotenv`, `os.getenv`, `genai.configure` and `exit()`. Only the resulting enabled/disabled flag (`DataFactory.AiClient`) is modelled.
- Interactive input (`get_user_input`, `build_schema_interactively`) and all logging. The pipelines' operations take the values these would return.
- The text of every prompt. Each service call is an explicit reply, so `rows_per_scenario` and the plan's `'fields'`, which only shape prompts, have no effect in the model.
- `json.loads` is an arbitrary function from text to a parse outcome; no JSON parser is modelled.
- Faker providers and `random.choice` are oracles addressed by slot. `999.9` is kept as an opaque literal.
- pandas: `DataFrame` construction, its column union and NaN filling, and `to_csv`. The export step works on an abstract list of distinct column names, and `CsvOutput.FrameEmpty` stands for `df.empty`.
- Json.Get: a dictionary with repeated keys answers with the first entry, whereas `json.loads` keeps the last. The parse function is arbitrary, so parses without repeated keys are modelled exactly.
- PyText.AsciiLower and PyText.AsciiLowerChar: only ASCII letters are lower-cased. No other character lower-cases to a letter of `ideal`, `ai` or `auto`, so the keyword test is exact.
- PyInt.ParseInt: non-ASCII decimal digits, which Python's `int()` also accepts, are rejected. The digit limit is the interpreter's default of 4300; `sys.set_int_max_str_digits` is never called.
- The `EmptyChoice` error of `random.choice([])` never arises from the table, and is kept only so that `DataFactory.Invoke` is total.
- Each cell and each scenario outcome is computed before assembly stops at the first error. The loops stop at the first error instead, but every outcome depends only on its own slot or index, so the results agree.

=== FILE: csv_output.dfy ===
/** The post-processing both entry points apply before writing files: the
    `.csv` suffix on the chosen name, the two names derived from it, and the
    column layouts of the full report and of the data-only file. */
module CsvOutput {
  import opened Outcome
  import opened PyText

  const FullReportSuffix: string := "_full_report.csv"
  const DataOnlySuffix: string := "_data_only.csv"
  const ScenarioName: string := "scenario_name"
  const TestType: string := "test_type"

  /** `cols_to_move`: the two tag columns, in the order they are moved to. */
  const Tags: seq<string> := [ScenarioName, TestType]

  // ---------------------------------------------------------------------------
  // File names.

  /** Appends ".csv" unless the name already ends with it. */
  function EnsureCsv(name: string): (r: string)
    ensures EndsWith(r, Csv)
    ensures EndsWith(name, Csv) ==> r == name
    ensures !EndsWith(name, Csv) ==> r == name + Csv
  {
    if EndsWith(name, Csv) then name
    else
      assert (name + Csv)[|name + Csv| - |Csv|..] == Csv;
      name + Csv
  }

  /** Adding the suffix twice is adding it once. */
  lemma EnsureCsvIdempotent(name: string)
    ensures EnsureCsv(EnsureCsv(name)) == EnsureCsv(name)
  {
  }

  /** `output_filename.replace('.csv', '_full_report.csv')`. */
  function FullReportName(output: string): (r: string)
    ensures EndsWith(output, Csv) ==> EndsWith(r, FullReportSuffix)
  {
    if EndsWith(output, Csv) then
      ReplaceCsvKeepsSuffix(output, FullReportSuffix);
      ReplaceAll(output, Csv, FullReportSuffix)
    else ReplaceAll(output, Csv, FullReportSuffix)
  }

  /** `output_filename.replace('.csv', '_data_only.csv')`. */
  function DataOnlyName(output: string): (r: string)
    ensures EndsWith(output, Csv) ==> EndsWith(r, DataOnlySuffix)
  {
    if EndsWith(output, Csv) then
      ReplaceCsvKeepsSuffix(output, DataOnlySuffix);
      ReplaceAll(output, Csv, DataOnlySuffix)
    else ReplaceAll(output, Csv, DataOnlySuffix)
  }

  /** Whatever name was typed, both derived names end with their suffixes. */
  lemma DerivedNamesSuffix(name: string)
    ensures EndsWith(FullReportName(EnsureCsv(name)), FullReportSuffix)
    ensures EndsWith(DataOnlyName(EnsureCsv(name)), DataOnlySuffix)
  {
  }

  /** When ".csv" occurs in the typed name only as its suffix, or not at all,
      the derived names replace exactly that suffix. */
  lemma DerivedNamesExact(base: string)
    requires !Contains(base, Csv)
    ensures FullReportName(EnsureCsv(base)) == base + FullReportSuffix
    ensures FullReportName(EnsureCsv(base + Csv)) == base + FullReportSuffix
    ensures DataOnlyName(EnsureCsv(base)) == base + DataOnlySuffix
    ensures DataOnlyName(EnsureCsv(base + Csv)) == base + DataOnlySuffix
  {
    var s := base + Csv;
    assert s[|s| - |Csv|..] == Csv;
    if EndsWith(base, Csv) {
      assert OccursAt(base, Csv, |base| - |Csv|);
    }
    ReplaceCsvOnlySuffix(base, FullReportSuffix);
    ReplaceCsvOnlySuffix(base, DataOnlySuffix);
  }

  /** Replacement is not confined to the suffix: a ".csv" inside the typed
      name is rewritten as well, and the scan goes on after it. */
  lemma DerivedNamesReplaceEvery(before: string, after: string)
    requires !Contains(before, Csv)
    ensures FullReportName(before + Csv + after) == before + FullReportSuffix + FullReportName(after)
    ensures DataOnlyName(before + Csv + after) == before + DataOnlySuffix + DataOnlyName(after)
  {
    ReplaceCsvFirst(before, after, FullReportSuffix);
    ReplaceCsvFirst(before, after, DataOnlySuffix);
  }

  // ---------------------------------------------------------------------------
  // Columns.

  /** The columns of `cols` that are not in `drop`, in their original order. */
  function Without(cols: seq<string>, drop: seq<string>): (r: seq<string>)
    ensures |r| <= |cols|
    ensures forall c :: c in r <==> c in cols && c !in drop
    decreases |cols|
  {
    if |cols| == 0 then []
    else if cols[0] in drop then Without(cols[1..], drop)
    else [cols[0]] + Without(cols[1..], drop)
  }

  /** Dropping columns from two stretches of columns one after the other is
      dropping them from each stretch. Together with `WithoutSingle` this
      pins `Without` down: it keeps the kept columns in their order. */
  lemma {:induction false} WithoutAppend(a: seq<string>, b: seq<string>, drop: seq<string>)
    ensures Without(a + b, drop) == Without(a, drop) + Without(b, drop)
    decreases |a|
  {
    if |a| > 0 {
      assert (a + b)[0] == a[0];
      assert (a + b)[1..] == a[1..] + b;
      WithoutAppend(a[1..], b, drop);
    } else {
      assert a + b == b;
    }
  }

  /** A single column is dropped or kept. */
  lemma WithoutSingle(c: string, drop: seq<string>)
    ensures Without([c], drop) == if c in drop then [] else [c]
  {
    assert [c][1..] == [];
  }

  /** `df[cols_to_move + [col for col in df.columns if col not in cols_to_move]]`:
      `None` stands for the `KeyError` raised when a tag column is missing. */
  function FullReportColumns(cols: seq<string>): (r: Option<seq<string>>)
    ensures r.Some? <==> ScenarioName in cols && TestType in cols
    ensures r.Some? ==> |r.value| >= 2 && r.value[..2] == Tags
  {
    if ScenarioName in cols && TestType in cols then Some(Tags + Without(cols, Tags))
    else None
  }

  /** `df.drop(columns=cols_to_move)`: `None` stands for the `KeyError`
      raised when a tag column is missing. */
  function DataOnlyColumns(cols: seq<string>): (r: Option<seq<string>>)
    ensures r.Some? <==> ScenarioName in cols && TestType in cols
    ensures r.Some? ==> forall c :: c in r.value <==> c in cols && c != ScenarioName && c != TestType
  {
    if ScenarioName in cols && TestType in cols then Some(Without(cols, Tags))
    else None
  }

  /** `Without` keeps the relative order of what it keeps: it is `cols` with
      exactly the dropped columns removed. */
  lemma {:induction false} WithoutMultiset(cols: seq<string>, drop: seq<string>)
    ensures multiset(Without(cols, drop)) + multiset(Only(cols, drop)) == multiset(cols)
    decreases |cols|
  {
    if |cols| > 0 {
      WithoutMultiset(cols[1..], drop);
      assert cols == [cols[0]] + cols[1..];
    }
  }

  /** The columns of `cols` that are in `drop`, in their original order. */
  function Only(cols: seq<string>, drop: seq<string>): (r: seq<string>)
    ensures forall c :: c in r <==> c in cols && c in drop
    decreases |cols|
  {
    if |cols| == 0 then []
    else if cols[0] in drop then [cols[0]] + Only(cols[1..], drop)
    else Only(cols[1..], drop)
  }

  predicate Distinct(cols: seq<string>) {
    forall i, j :: 0 <= i < j < |cols| ==> cols[i] != cols[j]
  }

  /** A distinct sequence holds each of its elements once. */
  lemma {:induction false} DistinctMultiplicity(cols: seq<string>, c: string)
    requires Distinct(cols) && c in cols
    ensures multiset(cols)[c] == 1
    decreases |cols|
  {
    assert cols == [cols[0]] + cols[1..];
    if cols[0] == c {
      assert c !in cols[1..];
    } else {
      DistinctMultiplicity(cols[1..], c);
    }
  }

  /** Among distinct columns that hold both tags, the tag columns picked out
      in order are the tags themselves, up to order: one each. */
  lemma OnlyTags(cols: seq<string>)
    requires Distinct(cols) && ScenarioName in cols && TestType in cols
    ensures multiset(Only(cols, Tags)) == multiset(Tags)
  {
    WithoutMultiset(cols, Tags);
    DistinctMultiplicity(cols, ScenarioName);
    DistinctMultiplicity(cols, TestType);
    var m := multiset(Only(cols, Tags));
    forall c ensures m[c] == multiset(Tags)[c] {
      if c in Tags {
        assert c in Only(cols, Tags);
        assert m[c] <= multiset(cols)[c];
      } else {
        assert c !in Only(cols, Tags);
      }
    }
    assert m == multiset(Tags);
  }

  /** The full report is a permutation of the frame's columns: the two tags
      first, then everything else in the original order; the data-only file
      is that same remainder. */
  lemma ReportColumns(cols: seq<string>)
    requires Distinct(cols) && ScenarioName in cols && TestType in cols
    ensures FullReportColumns(cols).Some? && DataOnlyColumns(cols).Some?
    ensures FullReportColumns(cols).value == Tags + DataOnlyColumns(cols).value
    ensures multiset(FullReportColumns(cols).value) == multiset(cols)
    ensures forall k :: 0 <= k <= |cols| ==>
              DataOnlyColumns(cols).value == Without(cols[..k], Tags) + Without(cols[k..], Tags)
  {
    WithoutMultiset(cols, Tags);
    OnlyTags(cols);
    forall k | 0 <= k <= |cols|
      ensures Without(cols, Tags) == Without(cols[..k], Tags) + Without(cols[k..], Tags)
    {
      assert cols == cols[..k] + cols[k..];
      WithoutAppend(cols[..k], cols[k..], Tags);
    }
  }

  /** `pd.DataFrame(rows).empty`: a frame with no row or no column is empty,
      and then nothing is written. */
  predicate FrameEmpty(rowCount: nat, columns: seq<string>) {
    rowCount == 0 || |columns| == 0
  }
}

=== FILE: data_factory.dfy ===
/** The schema-driven row generator: a fixed table from (type, case) to a
    value producer, and `generate_data`, which resolves every field of every
    row through it.

    Everything outside the program is an explicit input. The Faker library,
    `random.choice` and the text service are `Oracles`: total functions from
    the slot of the draw (and, for the service, the prompt) to its outcome. */
module DataFactory {
  import opened Outcome
  import opened PyText
  import opened Service

  // ---------------------------------------------------------------------------
  // Data model.

  /** A generated cell. `Float` keeps the literal of the one non-integral
      number the table produces; it is never computed with. */
  datatype Value = Str(s: string) | Int(i: int) | Float(literal: string)

  /** A field descriptor `{'type': ..., 'prompt': ...}`; either key may be absent. */
  datatype FieldConfig = FieldConfig(fieldType: Option<string>, prompt: Option<string>)

  /** A schema entry: field name and descriptor. */
  type Field = (string, FieldConfig)

  predicate DistinctNames(fields: seq<Field>) {
    forall i, j :: 0 <= i < j < |fields| ==> fields[i].0 != fields[j].0
  }

  /** The fields of a schema: a dictionary, so the names are distinct. */
  type Fields = fields: seq<Field> | DistinctNames(fields) witness []

  /** `{'fields': {...}}`, where the `'fields'` key may be absent. */
  datatype Schema = Schema(fields: Option<Fields>)

  /** One generated row: field names with their values, in schema order. */
  type Record = seq<(string, Value)>

  /** Whether the text service was configured when the module was loaded. */
  datatype AiClient = Disabled | Enabled

  /** A value producer of the table. */
  datatype Producer =
    | Faker(provider: string)             // a Faker provider, called with no argument
    | Constant(value: Value)            // `lambda: value`
    | OneOf(alternatives: seq<Value>)   // `lambda: random.choice(alternatives)`
    | AiContent                         // `generate_ai_content`, called with the prompt

  /** Why `generate_data` raised. */
  datatype FactoryError =
    | ArityMismatch   // a producer was called with the wrong number of arguments
    | EmptyChoice     // `random.choice([])`

  /** The outside world, addressed by slot: slot `k` is the `k`-th field
      visited by `generate_data`, and its case draw, its draw among a
      negative producer's alternatives, its Faker result and the service's
      reply to its prompt are read here. A slot makes at most one draw of
      each kind, so every sequence of outcomes the sequential generators
      could produce is some choice of these functions. */
  datatype Oracles = Oracles(
    caseDraw: nat -> nat,
    altDraw: nat -> nat,
    faker: (string, nat) -> Value,
    service: nat -> string -> Reply)

  const Positive: string := "positive"
  const Negative: string := "negative"
  const Mixed: string := "mixed"
  const AiText: string := "ai_text"
  const DefaultPrompt: string := "generate random text"
  const AiDisabled: string := "AI_DISABLED"
  const AiGenerationError: string := "AI_GENERATION_ERROR"

  // ---------------------------------------------------------------------------
  // The type table.

  /** `"A" * 201`. */
  function OverlongName(): (r: string)
    ensures |r| == 201
    ensures forall k :: 0 <= k < |r| ==> r[k] == 'A'
  {
    seq(201, k => 'A')
  }

  const NegativeNames: seq<Value> := [Str(""), Str("Name123"), Str(OverlongName())]
  const NegativeIntegers: seq<Value> := [Int(-1), Float("999.9"), Str("abc")]

  /** `TYPE_GENERATORS`. The positive producers are Faker providers and stay
      abstract; `password` is called with `length=12`. */
  const TypeGenerators: map<string, map<string, Producer>> := map[
    "name" := map[Positive := Faker("name"), Negative := OneOf(NegativeNames)],
    "email" := map[Positive := Faker("safe_email"), Negative := Constant(Str("not-an-email"))],
    "password" := map[Positive := Faker("password"), Negative := Constant(Str("123"))],
    "integer" := map[Positive := Faker("random_int"), Negative := OneOf(NegativeIntegers)],
    "date" := map[Positive := Faker("date"), Negative := Constant(Str("2025-99-99"))],
    "uuid" := map[Positive := Faker("uuid4"), Negative := Constant(Str("not-a-uuid"))],
    AiText := map[Positive := AiContent, Negative := Constant(Str("INVALID_AI_PROMPT"))]
  ]

  /** `TYPE_GENERATORS.get(field_type, {}).get(case)`. */
  function Lookup(fieldType: Option<string>, caseName: string): (r: Option<Producer>)
    ensures r.Some? <==> fieldType.Some? && fieldType.value in TypeGenerators
                         && (caseName == Positive || caseName == Negative)
  {
    if fieldType.Some? && fieldType.value in TypeGenerators
       && caseName in TypeGenerators[fieldType.value]
    then Some(TypeGenerators[fieldType.value][caseName])
    else None
  }

  /** The table covers seven types, each with a positive and a negative
      producer, and only the positive `ai_text` producer takes an argument. */
  lemma TypeTable()
    ensures TypeGenerators.Keys == {"name", "email", "password", "integer", "date", "uuid", AiText}
    ensures forall t :: t in TypeGenerators ==> TypeGenerators[t].Keys == {Positive, Negative}
    ensures forall t, c :: t in TypeGenerators && c in TypeGenerators[t] ==>
              (TypeGenerators[t][c].AiContent? <==> t == AiText && c == Positive)
    ensures forall t, c :: t in TypeGenerators && c in TypeGenerators[t] && TypeGenerators[t][c].OneOf? ==>
              |TypeGenerators[t][c].alternatives| > 0
  {
    forall t | t in TypeGenerators
      ensures TypeGenerators[t].Keys == {Positive, Negative}
      ensures forall c :: c in TypeGenerators[t] ==>
                (TypeGenerators[t][c].AiContent? <==> t == AiText && c == Positive)
      ensures forall c :: c in TypeGenerators[t] && TypeGenerators[t][c].OneOf? ==>
                |TypeGenerators[t][c].alternatives| > 0
    {
      TypeEntry(t);
    }
  }

  /** One row of the table: both cases, an argument only for positive
      `ai_text`, and no empty choice. */
  lemma TypeEntry(t: string)
    requires t in TypeGenerators
    ensures TypeGenerators[t].Keys == {Positive, Negative}
    ensures TypeGenerators[t][Positive].AiContent? <==> t == AiText
    ensures !TypeGenerators[t][Negative].AiContent?
    ensures !TypeGenerators[t][Positive].OneOf?
    ensures TypeGenerators[t][Negative].OneOf? ==> |TypeGenerators[t][Negative].alternatives| > 0
  {
    if t == "name" {
    } else if t == "email" {
    } else if t == "password" {
    } else if t == "integer" {
    } else if t == "date" {
    } else if t == "uuid" {
    } else {
      assert t == AiText;
    }
  }

  /** How an f-string renders the field type: `None` when the key is absent. */
  function TypeText(fieldType: Option<string>): string {
    match fieldType
    case Some(t) => t
    case None => "None"
  }

  const SentinelPrefix: string := "NO_GENERATOR_FOR_"

  /** `f"NO_GENERATOR_FOR_{field_type}_{current_case}"`: the type and the
      case can be read back from it. */
  function Sentinel(fieldType: Option<string>, caseName: string): (r: string)
    ensures |r| == |SentinelPrefix| + |TypeText(fieldType)| + 1 + |caseName|
    ensures r[..|SentinelPrefix|] == SentinelPrefix
    ensures r[|SentinelPrefix|..|r| - |caseName| - 1] == TypeText(fieldType)
    ensures r[|r| - |caseName| - 1] == '_' && r[|r| - |caseName|..] == caseName
  {
    SentinelPrefix + TypeText(fieldType) + "_" + caseName
  }

  /** `field_config.get('prompt', 'generate random text')`. */
  function PromptOf(f: FieldConfig): (r: string)
    ensures f.prompt.Some? ==> r == f.prompt.value
    ensures f.prompt.None? ==> r == DefaultPrompt
  {
    f.prompt.GetOr(DefaultPrompt)
  }

  /** `random.choice(xs)` with draw `d`: every alternative is the result of
      some draw. */
  function Choice<T>(xs: seq<T>, d: nat): (r: T)
    requires |xs| > 0
    ensures r in xs
    ensures d < |xs| ==> r == xs[d]
  {
    xs[d % |xs|]
  }

  // ---------------------------------------------------------------------------
  // Producers.

  /** `generate_ai_content(prompt)`, where `ask` is the service's reply to a
      prompt. A disabled client never consults the service. */
  function GenerateAiContent(ai: AiClient, prompt: string, ask: string -> Reply): (r: string)
    ensures ai.Disabled? ==> r == AiDisabled
    ensures ai.Enabled? && ask(prompt).ServiceError? ==> r == AiGenerationError
    ensures ai.Enabled? && ask(prompt).Answer? ==>
              (exists i :: SpaceAround(ask(prompt).text, r, i))
              && (|r| > 0 ==> !IsSpace(r[0]) && !IsSpace(r[|r| - 1]))
  {
    if ai.Disabled? then AiDisabled
    else match ask(prompt)
      case Answer(text) => Strip(text)
      case ServiceError => AiGenerationError
  }

  /** Calls producer `p` at slot `k`, with the prompt as its one argument
      when `prompt` is present and with no argument otherwise. A
      zero-argument producer called with a prompt, or the reverse, raises. */
  function Invoke(p: Producer, prompt: Option<string>, ai: AiClient, orc: Oracles, k: nat)
    : (r: Result<Value, FactoryError>)
    ensures r.Err? <==> (p.AiContent? == prompt.None?) || (p.OneOf? && |p.alternatives| == 0)
  {
    match p
    case AiContent =>
      if prompt.None? then Err(ArityMismatch)
      else Ok(Str(GenerateAiContent(ai, prompt.value, orc.service(k))))
    case Faker(m) =>
      if prompt.Some? then Err(ArityMismatch) else Ok(orc.faker(m, k))
    case Constant(v) =>
      if prompt.Some? then Err(ArityMismatch) else Ok(v)
    case OneOf(alts) =>
      if prompt.Some? then Err(ArityMismatch)
      else if |alts| == 0 then Err(EmptyChoice)
      else Ok(Choice(alts, orc.altDraw(k)))
  }

  // ---------------------------------------------------------------------------
  // Case selection and what a cell may hold.

  /** The slot of field `j` of row `i` when rows have `width` fields. */
  function Slot(width: nat, i: nat, j: nat): nat {
    i * width + j
  }

  /** The case used at slot `k`: the policy verbatim, or under `'mixed'` the
      slot's own `random.choice(['positive', 'negative'])`. */
  function CaseAt(policy: string, orc: Oracles, k: nat): (c: string)
    ensures policy != Mixed ==> c == policy
    ensures policy == Mixed ==> c == Positive || c == Negative
  {
    if policy == Mixed then Choice([Positive, Negative], orc.caseDraw(k)) else policy
  }

  /** Under `'mixed'` the case of a slot is decided by that slot's draw
      alone: an even draw picks `'positive'`, an odd one `'negative'`. */
  lemma MixedDraw(orc: Oracles, k: nat)
    ensures CaseAt(Mixed, orc, k) == if orc.caseDraw(k) % 2 == 0 then Positive else Negative
  {
  }

  /** Slots of different cells differ: the row and the field can be read
      back from the slot. */
  lemma SlotInverse(width: nat, i: nat, j: nat)
    requires j < width
    ensures Slot(width, i, j) / width == i && Slot(width, i, j) % width == j
  {
    var k := Slot(width, i, j);
    var q := k / width;
    var r := k % width;
    assert q * width + r == i * width + j && 0 <= r < width;
    if q < i {
      RowsApart(q, i, width);
    } else if q > i {
      RowsApart(i, q, width);
    }
  }

  /** The slots of a later row all come after those of an earlier one. */
  lemma {:induction false} RowsApart(a: nat, b: nat, width: nat)
    requires a < b
    ensures a * width + width <= b * width
    decreases b
  {
    var c: nat := b - 1;
    assert b * width == c * width + width;
    if a < c {
      RowsApart(a, c, width);
    }
  }

  /** Under `'mixed'` every choice of cases for the cells can come about:
      for any `want`, changing only the case draws makes cell `(i, j)`
      negative exactly where `want(i, j)` holds. */
  lemma MixedReachesAnyCases(orc: Oracles, width: nat, want: (nat, nat) -> bool) returns (orc2: Oracles)
    ensures orc2.altDraw == orc.altDraw && orc2.faker == orc.faker && orc2.service == orc.service
    ensures forall i: nat, j: nat :: j < width ==>
              CaseAt(Mixed, orc2, Slot(width, i, j)) == if want(i, j) then Negative else Positive
  {
    orc2 := orc.(caseDraw := (k: nat) => if width > 0 && want(k / width, k % width) then 1 else 0);
    forall i: nat, j: nat | j < width
      ensures CaseAt(Mixed, orc2, Slot(width, i, j)) == if want(i, j) then Negative else Positive
    {
      SlotInverse(width, i, j);
      MixedDraw(orc2, Slot(width, i, j));
    }
  }

  /** The values a field may receive under a case, stated from the table
      alone: the sentinel on a lookup miss, a Faker result, the constant, one
      of the alternatives, or the text service's stripped reply to the
      field's prompt. */
  ghost predicate Admissible(f: FieldConfig, caseName: string, v: Value, ai: AiClient, orc: Oracles) {
    match Lookup(f.fieldType, caseName)
    case None => v == Str(Sentinel(f.fieldType, caseName))
    case Some(Faker(m)) => exists k :: v == orc.faker(m, k)
    case Some(Constant(c)) => v == c
    case Some(OneOf(alts)) => v in alts
    case Some(AiContent) => exists k :: v == Str(GenerateAiContent(ai, PromptOf(f), orc.service(k)))
  }

  /** A field raises when its type is `ai_text` and its case is negative:
      the zero-argument negative producer is called with the prompt. */
  predicate Raises(f: FieldConfig, caseName: string) {
    f.fieldType == Some(AiText) && caseName == Negative
  }

  // ---------------------------------------------------------------------------
  // generate_data.

  /** The value of one field under case `caseName` at slot `k`: a lookup
      miss gives the sentinel, an `ai_text` producer is called with the
      prompt, every other producer with no argument. */
  function GenerateField(f: FieldConfig, caseName: string, ai: AiClient, orc: Oracles, k: nat)
    : (r: Result<Value, FactoryError>)
    ensures r.Err? <==> Raises(f, caseName)
    ensures r.Err? ==> r.error == ArityMismatch
  {
    match Lookup(f.fieldType, caseName)
    case None => Ok(Str(Sentinel(f.fieldType, caseName)))
    case Some(p) =>
      Invoke(p, if f.fieldType == Some(AiText) then Some(PromptOf(f)) else None, ai, orc, k)
  }

  /** The cell at slot `k` for field descriptor `f` under `policy`. */
  function Cell(f: FieldConfig, policy: string, ai: AiClient, orc: Oracles, k: nat): Result<Value, FactoryError> {
    GenerateField(f, CaseAt(policy, orc, k), ai, orc, k)
  }

  /** The cells of one row, in schema order. */
  type Cells = seq<Result<Value, FactoryError>>

  /** The outcome of every cell of the first `n` rows: field `j` of row `i`
      is the cell of slot `Slot(|fields|, i, j)`. A cell depends on nothing
      but its slot, so assembling rows from this grid and stopping at the
      first cell that raises gives what the nested loops build. */
  function Grid(fields: seq<Field>, policy: string, ai: AiClient, orc: Oracles, n: nat): seq<Cells> {
    seq(n, i requires 0 <= i < n =>
      seq(|fields|, j requires 0 <= j < |fields| => Cell(fields[j].1, policy, ai, orc, Slot(|fields|, i, j))))
  }

  /** Every row of the grid has one cell per field. */
  predicate Rectangular(grid: seq<Cells>, width: nat) {
    forall i :: 0 <= i < |grid| ==> |grid[i]| == width
  }

  /** The first `j` fields of a record, named after the schema, stopping at
      the first cell that raises. */
  function AssembleRecord(fields: seq<Field>, cells: Cells, j: nat): (r: Result<Record, FactoryError>)
    requires j <= |fields| && j <= |cells|
    ensures r.Ok? ==> |r.value| == j
    decreases j
  {
    if j == 0 then Ok([])
    else
      var k: nat := j - 1;
      var prefix := AssembleRecord(fields, cells, k);
      if prefix.Err? then prefix
      else if cells[k].Err? then Err(cells[k].error)
      else Ok(prefix.value + [(fields[k].0, cells[k].value)])
  }

  /** The first `n` rows, in generation order, stopping at the first row
      that raises. */
  function AssembleRows(fields: seq<Field>, grid: seq<Cells>, n: nat): (r: Result<seq<Record>, FactoryError>)
    requires n <= |grid| && Rectangular(grid, |fields|)
    ensures r.Ok? ==> |r.value| == n
    ensures r.Ok? ==> forall i :: 0 <= i < n ==> |r.value[i]| == |fields|
    decreases n
  {
    if n == 0 then Ok([])
    else
      var m: nat := n - 1;
      var prev := AssembleRows(fields, grid, m);
      if prev.Err? then prev
      else
        var row := AssembleRecord(fields, grid[m], |fields|);
        if row.Err? then Err(row.error)
        else Ok(prev.value + [row.value])
  }

  /** `schema.get('fields', {})`. */
  function FieldsOf(schema: Schema): (r: Fields)
    ensures schema.fields.Some? ==> r == schema.fields.value
    ensures schema.fields.None? ==> r == []
  {
    schema.fields.GetOr([])
  }

  /** The number of iterations of `range(num_rows)`. */
  function RowCount(numRows: int): (n: nat)
    ensures numRows <= 0 ==> n == 0
    ensures numRows > 0 ==> n == numRows
  {
    if numRows > 0 then numRows else 0
  }

  /** `generate_data(schema, num_rows, test_type)`, before the rows become a
      data frame. */
  function GenerateData(schema: Schema, numRows: int, policy: string, ai: AiClient, orc: Oracles)
    : (r: Result<seq<Record>, FactoryError>)
    ensures r.Ok? ==> |r.value| == RowCount(numRows)
  {
    var fields := FieldsOf(schema);
    var n := RowCount(numRows);
    AssembleRows(fields, Grid(fields, policy, ai, orc, n), n)
  }

  // ---------------------------------------------------------------------------
  // Properties of assembly.

  /** Field `k` of an assembled record holds the field's name and the value
      of cell `k`. */
  lemma {:induction false} RecordCell(fields: seq<Field>, cells: Cells, j: nat, k: nat)
    requires k < j <= |fields| && j <= |cells|
    requires AssembleRecord(fields, cells, j).Ok?
    ensures cells[k].Ok? && AssembleRecord(fields, cells, j).value[k] == (fields[k].0, cells[k].value)
    decreases j
  {
    var l: nat := j - 1;
    if k < l {
      RecordCell(fields, cells, l, k);
      assert AssembleRecord(fields, cells, j).value[k] == AssembleRecord(fields, cells, l).value[k];
    }
  }

  /** A cell that raises makes its record raise. */
  lemma {:induction false} RecordRaisesAt(fields: seq<Field>, cells: Cells, j: nat, k: nat)
    requires k < j <= |fields| && j <= |cells| && cells[k].Err?
    ensures AssembleRecord(fields, cells, j).Err?
    decreases j
  {
    var l: nat := j - 1;
    if k < l {
      RecordRaisesAt(fields, cells, l, k);
    }
  }

  /** A record that raises raises the error of one of its cells. */
  lemma {:induction false} RecordRaiseWitness(fields: seq<Field>, cells: Cells, j: nat) returns (k: nat)
    requires j <= |fields| && j <= |cells| && AssembleRecord(fields, cells, j).Err?
    ensures k < j && cells[k] == Err(AssembleRecord(fields, cells, j).error)
    decreases j
  {
    var l: nat := j - 1;
    if AssembleRecord(fields, cells, l).Err? {
      k := RecordRaiseWitness(fields, cells, l);
    } else {
      k := l;
    }
  }

  /** Row `i` of the assembled rows is the record assembled from row `i` of
      the grid. */
  lemma {:induction false} RowAt(fields: seq<Field>, grid: seq<Cells>, n: nat, i: nat)
    requires i < n <= |grid| && Rectangular(grid, |fields|)
    requires AssembleRows(fields, grid, n).Ok?
    ensures AssembleRecord(fields, grid[i], |fields|).Ok?
    ensures AssembleRows(fields, grid, n).value[i] == AssembleRecord(fields, grid[i], |fields|).value
    decreases n
  {
    var m: nat := n - 1;
    if i < m {
      RowAt(fields, grid, m, i);
      assert AssembleRows(fields, grid, n).value[i] == AssembleRows(fields, grid, m).value[i];
    }
  }

  /** A cell that raises makes the rows raise. */
  lemma {:induction false} RowsRaiseAt(fields: seq<Field>, grid: seq<Cells>, n: nat, i: nat, j: nat)
    requires i < n <= |grid| && Rectangular(grid, |fields|) && j < |fields| && grid[i][j].Err?
    ensures AssembleRows(fields, grid, n).Err?
    decreases n
  {
    var m: nat := n - 1;
    if i < m {
      RowsRaiseAt(fields, grid, m, i, j);
    } else {
      RecordRaisesAt(fields, grid[m], |fields|, j);
    }
  }

  /** Rows that raise raise the error of one of their cells. */
  lemma {:induction false} RowsRaiseWitness(fields: seq<Field>, grid: seq<Cells>, n: nat) returns (i: nat, j: nat)
    requires n <= |grid| && Rectangular(grid, |fields|) && AssembleRows(fields, grid, n).Err?
    ensures i < n && j < |fields| && grid[i][j] == Err(AssembleRows(fields, grid, n).error)
    decreases n
  {
    var m: nat := n - 1;
    if AssembleRows(fields, grid, m).Err? {
      i, j := RowsRaiseWitness(fields, grid, m);
    } else {
      i := m;
      j := RecordRaiseWitness(fields, grid[m], |fields|);
    }
  }

  // ---------------------------------------------------------------------------
  // Properties of generate_data.

  /** Some field of some row among the first `n` raises. */
  ghost predicate SomeSlotRaises(fields: seq<Field>, policy: string, orc: Oracles, n: nat) {
    exists i, j :: 0 <= i < n && 0 <= j < |fields| && Raises(fields[j].1, CaseAt(policy, orc, Slot(|fields|, i, j)))
  }

  /** Field `j` of row `i` holds the field's name and the cell of slot
      `Slot(|fields|, i, j)`. */
  ghost predicate CellsAtSlots(rows: seq<Record>, fields: seq<Field>, policy: string, ai: AiClient, orc: Oracles) {
    forall i, j :: 0 <= i < |rows| && 0 <= j < |fields| && j < |rows[i]| ==>
      rows[i][j].0 == fields[j].0 && Cell(fields[j].1, policy, ai, orc, Slot(|fields|, i, j)) == Ok(rows[i][j].1)
  }

  /** `generate_data` yields `num_rows` records, or none when `num_rows <= 0`;
      every record has the schema's field names, in schema order, and field
      `j` of row `i` holds the cell of its slot. */
  lemma GenerateDataCells(schema: Schema, numRows: int, policy: string, ai: AiClient, orc: Oracles)
    requires GenerateData(schema, numRows, policy, ai, orc).Ok?
    ensures var rows := GenerateData(schema, numRows, policy, ai, orc).value;
            && |rows| == RowCount(numRows)
            && (forall i :: 0 <= i < |rows| ==> |rows[i]| == |FieldsOf(schema)|)
            && CellsAtSlots(rows, FieldsOf(schema), policy, ai, orc)
  {
    var fields := FieldsOf(schema);
    var n := RowCount(numRows);
    var grid := Grid(fields, policy, ai, orc, n);
    AssembledCells(fields, grid, n);
    var rows: seq<Record> := GenerateData(schema, numRows, policy, ai, orc).value;
    forall i, j {:trigger rows[i][j]} | 0 <= i < |rows| && 0 <= j < |fields| && j < |rows[i]|
      ensures rows[i][j].0 == fields[j].0 && Cell(fields[j].1, policy, ai, orc, Slot(|fields|, i, j)) == Ok(rows[i][j].1)
    {
      assert grid[i][j] == Cell(fields[j].1, policy, ai, orc, Slot(|fields|, i, j));
    }
  }

  /** Every field of every assembled row holds the field's name and the
      value of its cell in the grid. */
  lemma AssembledCells(fields: seq<Field>, grid: seq<Cells>, n: nat)
    requires n <= |grid| && Rectangular(grid, |fields|)
    requires AssembleRows(fields, grid, n).Ok?
    ensures forall i, j :: 0 <= i < n && 0 <= j < |fields| ==> grid[i][j].Ok?
    ensures forall i, j :: 0 <= i < n && 0 <= j < |fields| ==>
              AssembleRows(fields, grid, n).value[i][j] == (fields[j].0, grid[i][j].value)
  {
    forall i, j {:trigger grid[i][j]} | 0 <= i < n && 0 <= j < |fields|
      ensures grid[i][j].Ok? && AssembleRows(fields, grid, n).value[i][j] == (fields[j].0, grid[i][j].value)
    {
      RowAt(fields, grid, n, i);
      RecordCell(fields, grid[i], |fields|, j);
    }
  }

  /** `generate_data` raises exactly when some field of some row is an
      `ai_text` field whose case is negative, and the error is then the
      call of a zero-argument producer with the prompt. */
  lemma GenerateDataRaises(schema: Schema, numRows: int, policy: string, ai: AiClient, orc: Oracles)
    ensures var r := GenerateData(schema, numRows, policy, ai, orc);
            && (r.Err? <==> SomeSlotRaises(FieldsOf(schema), policy, orc, RowCount(numRows)))
            && (r.Err? ==> r.error == ArityMismatch)
  {
    var fields := FieldsOf(schema);
    var n := RowCount(numRows);
    var grid := Grid(fields, policy, ai, orc, n);
    if AssembleRows(fields, grid, n).Err? {
      var i, j := RowsRaiseWitness(fields, grid, n);
      assert grid[i][j] == Cell(fields[j].1, policy, ai, orc, Slot(|fields|, i, j));
    }
    if SomeSlotRaises(fields, policy, orc, n) {
      var i: nat, j: nat :| i < n && j < |fields| && Raises(fields[j].1, CaseAt(policy, orc, Slot(|fields|, i, j)));
      assert grid[i][j] == Cell(fields[j].1, policy, ai, orc, Slot(|fields|, i, j));
      RowsRaiseAt(fields, grid, n, i, j);
    }
  }

  /** The cell of a field that does not raise is a value its descriptor
      admits under the case of the slot. */
  lemma CellAdmissible(f: FieldConfig, policy: string, ai: AiClient, orc: Oracles, k: nat)
    requires Cell(f, policy, ai, orc, k).Ok?
    ensures Admissible(f, CaseAt(policy, orc, k), Cell(f, policy, ai, orc, k).value, ai, orc)
  {
  }

  /** Under the positive policy nothing raises. */
  lemma PositiveNeverRaises(schema: Schema, numRows: int, ai: AiClient, orc: Oracles)
    ensures GenerateData(schema, numRows, Positive, ai, orc).Ok?
  {
    GenerateDataRaises(schema, numRows, Positive, ai, orc);
  }

  /** Under the negative policy, one row and one `ai_text` field suffice to
      abort the whole generation. */
  lemma NegativeAiTextAborts(schema: Schema, numRows: int, ai: AiClient, orc: Oracles, j: nat)
    requires numRows > 0 && j < |FieldsOf(schema)| && FieldsOf(schema)[j].1.fieldType == Some(AiText)
    ensures GenerateData(schema, numRows, Negative, ai, orc) == Err(ArityMismatch)
  {
    var fields := FieldsOf(schema);
    GenerateDataRaises(schema, numRows, Negative, ai, orc);
    assert Raises(fields[j].1, CaseAt(Negative, orc, Slot(|fields|, 0, j)));
  }

  /** A policy other than positive, negative or mixed never raises, and
      every field of every row is the sentinel naming its type and that
      policy. */
  lemma UnknownPolicySentinels(schema: Schema, numRows: int, policy: string, ai: AiClient, orc: Oracles)
    requires policy != Positive && policy != Negative && policy != Mixed
    ensures var r := GenerateData(schema, numRows, policy, ai, orc);
            var fields := FieldsOf(schema);
            && r.Ok?
            && forall i, j :: 0 <= i < |r.value| && 0 <= j < |fields| ==>
                 r.value[i][j] == (fields[j].0, Str(Sentinel(fields[j].1.fieldType, policy)))
  {
    GenerateDataRaises(schema, numRows, policy, ai, orc);
    GenerateDataCells(schema, numRows, policy, ai, orc);
    var rows := GenerateData(schema, numRows, policy, ai, orc).value;
    var fields := FieldsOf(schema);
    forall i, j {:trigger rows[i][j]} | 0 <= i < |rows| && 0 <= j < |fields|
      ensures rows[i][j] == (fields[j].0, Str(Sentinel(fields[j].1.fieldType, policy)))
    {
      var k := Slot(|fields|, i, j);
      assert Cell(fields[j].1, policy, ai, orc, k) == Ok(rows[i][j].1);
    }
  }

  /** A field whose type is absent from the table, or absent altogether,
      receives the sentinel under every case and never raises. */
  lemma UnknownTypeSentinel(f: FieldConfig, caseName: string, ai: AiClient, orc: Oracles, k: nat)
    requires f.fieldType.None? || f.fieldType.value !in TypeGenerators
    ensures GenerateField(f, caseName, ai, orc, k) == Ok(Str(Sentinel(f.fieldType, caseName)))
    ensures f.fieldType.None? ==> Sentinel(f.fieldType, caseName) == "NO_GENERATOR_FOR_None_" + caseName
  {
  }

  /** Under the positive case an `ai_text` field receives the service's
      outcome for its prompt, `"generate random text"` when none is stored. */
  lemma AiTextPositive(f: FieldConfig, ai: AiClient, orc: Oracles, k: nat)
    requires f.fieldType == Some(AiText)
    ensures GenerateField(f, Positive, ai, orc, k) == Ok(Str(GenerateAiContent(ai, PromptOf(f), orc.service(k))))
    ensures f.prompt.None? ==> PromptOf(f) == DefaultPrompt
  {
  }

  /** The negative producers: fixed strings for email, password, date and
      uuid, one of three values for name and for integer, and a call that
      raises for `ai_text`. */
  lemma NegativeCells(f: FieldConfig, ai: AiClient, orc: Oracles, k: nat)
    ensures var r := GenerateField(f, Negative, ai, orc, k);
            && (f.fieldType == Some("email") ==> r == Ok(Str("not-an-email")) && '@' !in r.value.s)
            && (f.fieldType == Some("password") ==> r == Ok(Str("123")))
            && (f.fieldType == Some("date") ==> r == Ok(Str("2025-99-99")))
            && (f.fieldType == Some("uuid") ==> r == Ok(Str("not-a-uuid")))
            && (f.fieldType == Some("name") ==> r.Ok? && r.value in {Str(""), Str("Name123"), Str(OverlongName())})
            && (f.fieldType == Some("integer") ==> r.Ok? && r.value in {Int(-1), Float("999.9"), Str("abc")})
            && (f.fieldType == Some(AiText) ==> r == Err(ArityMismatch))
  {
  }

  /** Under the positive case every typed field other than `ai_text` is the
      result of its Faker provider at the field's slot, unchanged. */
  lemma PositiveFakerCells(f: FieldConfig, ai: AiClient, orc: Oracles, k: nat)
    ensures var r := GenerateField(f, Positive, ai, orc, k);
            && (f.fieldType == Some("name") ==> r == Ok(orc.faker("name", k)))
            && (f.fieldType == Some("email") ==> r == Ok(orc.faker("safe_email", k)))
            && (f.fieldType == Some("password") ==> r == Ok(orc.faker("password", k)))
            && (f.fieldType == Some("integer") ==> r == Ok(orc.faker("random_int", k)))
            && (f.fieldType == Some("date") ==> r == Ok(orc.faker("date", k)))
            && (f.fieldType == Some("uuid") ==> r == Ok(orc.faker("uuid4", k)))
  {
  }

  /** A schema without `'fields'` yields the requested number of empty records. */
  lemma NoFieldsEmptyRecords(numRows: int, policy: string, ai: AiClient, orc: Oracles)
    ensures GenerateData(Schema(None), numRows, policy, ai, orc) == Ok(seq(RowCount(numRows), i => []))
  {
    var r := GenerateData(Schema(None), numRows, policy, ai, orc);
    GenerateDataRaises(Schema(None), numRows, policy, ai, orc);
    GenerateDataCells(Schema(None), numRows, policy, ai, orc);
    assert r.value == seq(RowCount(numRows), i => []);
  }

  /** Each field of each row reads the case draw of its own slot: distinct
      fields have distinct slots. */
  lemma SlotsDistinct(width: nat, i: nat, j: nat, i2: nat, j2: nat)
    requires j < width && j2 < width && (i, j) != (i2, j2)
    ensures Slot(width, i, j) != Slot(width, i2, j2)
  {
    SlotInverse(width, i, j);
    SlotInverse(width, i2, j2);
  }

  // ---------------------------------------------------------------------------
  // The test-type menu of the interactive entry point.

  /** `{1: 'positive', 2: 'negative', 3: 'mixed'}[choice]`; the menu only
      accepts these three keys. */
  function TestTypeOf(choice: int): (r: Option<string>)
    ensures r.Some? <==> 1 <= choice <= 3
  {
    if choice == 1 then Some(Positive)
    else if choice == 2 then Some(Negative)
    else if choice == 3 then Some(Mixed)
    else None
  }

  /** The three menu entries name the three policies, each once. */
  lemma TestTypeChoices(a: int, b: int)
    requires TestTypeOf(a).Some? && TestTypeOf(b).Some?
    ensures TestTypeOf(a).value in {Positive, Negative, Mixed}
    ensures TestTypeOf(a) == TestTypeOf(b) ==> a == b
  {
  }
}

=== FILE: json.dfy ===
/** Decoded JSON values, the outcome of `json.loads`, and the two dictionary
    operations the pipelines use on them: `d.get(k)` / `d[k]` and `d[k] = v`. */
module Json {
  import opened Outcome

  /** A value `json.loads` can return. Numbers are kept as their literal text:
      no arithmetic is ever done on them. */
  datatype Json =
    | JNull
    | JBool(b: bool)
    | JNumber(literal: string)
    | JString(s: string)
    | JArray(items: seq<Json>)
    | JObject(members: seq<(string, Json)>)
  {
    /** `len(v)` succeeds: strings, lists and dictionaries. */
    predicate HasLength() {
      JString? || JArray? || JObject?
    }
  }

  /** A Python dictionary with string keys, in insertion order. */
  type Dict = seq<(string, Json)>

  /** The outcome of `json.loads(text)`, which is a fixed function of the text. */
  datatype Parsed = Parsed(value: Json) | ParseError

  function Keys(d: Dict): (r: seq<string>)
    ensures |r| == |d|
    ensures forall i :: 0 <= i < |d| ==> r[i] == d[i].0
  {
    if |d| == 0 then [] else [d[0].0] + Keys(d[1..])
  }

  /** `d.get(k)`: the value stored under `k`, if any. */
  function Get(d: Dict, k: string): (r: Option<Json>)
    ensures r.Some? <==> k in Keys(d)
  {
    if |d| == 0 then None
    else if d[0].0 == k then Some(d[0].1)
    else Get(d[1..], k)
  }

  /** The value `Get` finds is stored in the first entry with that key. */
  lemma {:induction false} GetEntry(d: Dict, k: string) returns (i: nat)
    requires Get(d, k).Some?
    ensures i < |d| && d[i] == (k, Get(d, k).value)
    ensures forall j :: 0 <= j < i ==> d[j].0 != k
    decreases |d|
  {
    if d[0].0 == k {
      i := 0;
    } else {
      var t := GetEntry(d[1..], k);
      i := t + 1;
    }
  }

  /** Looking up in a dictionary with one entry in front. */
  lemma GetCons(e: (string, Json), t: Dict, k: string)
    ensures Get([e] + t, k) == if e.0 == k then Some(e.1) else Get(t, k)
  {
    assert ([e] + t)[1..] == t;
  }

  /** The keys of a dictionary with one entry in front. */
  lemma KeysCons(e: (string, Json), t: Dict)
    ensures Keys([e] + t) == [e.0] + Keys(t)
  {
    assert ([e] + t)[1..] == t;
  }

  /** Overwriting the value of the front entry. */
  lemma PutHere(e: (string, Json), t: Dict, v: Json)
    ensures Get([(e.0, v)] + t, e.0) == Some(v)
    ensures forall k' :: k' != e.0 ==> Get([(e.0, v)] + t, k') == Get([e] + t, k')
    ensures e.0 in Keys([e] + t) && Keys([(e.0, v)] + t) == Keys([e] + t)
  {
    GetCons((e.0, v), t, e.0);
    KeysCons((e.0, v), t);
    KeysCons(e, t);
    forall k' | k' != e.0
      ensures Get([(e.0, v)] + t, k') == Get([e] + t, k')
    {
      GetCons((e.0, v), t, k');
      GetCons(e, t, k');
    }
  }

  /** Putting behind a front entry with another key. */
  lemma PutBehind(e: (string, Json), t: Dict, rest: Dict, k: string, v: Json)
    requires e.0 != k
    requires Get(rest, k) == Some(v)
    requires forall k' :: k' != k ==> Get(rest, k') == Get(t, k')
    requires Keys(rest) == if k in Keys(t) then Keys(t) else Keys(t) + [k]
    ensures Get([e] + rest, k) == Some(v)
    ensures forall k' :: k' != k ==> Get([e] + rest, k') == Get([e] + t, k')
    ensures Keys([e] + rest) == if k in Keys([e] + t) then Keys([e] + t) else Keys([e] + t) + [k]
  {
    GetCons(e, rest, k);
    KeysCons(e, rest);
    KeysCons(e, t);
    forall k' | k' != k
      ensures Get([e] + rest, k') == Get([e] + t, k')
    {
      GetCons(e, rest, k');
      GetCons(e, t, k');
    }
    assert k in Keys([e] + t) <==> k in Keys(t);
  }

  /** `d[k] = v`: an existing key keeps its position and gets the new value;
      a new key is appended. */
  function Put(d: Dict, k: string, v: Json): (r: Dict)
    ensures Get(r, k) == Some(v)
    ensures forall k' :: k' != k ==> Get(r, k') == Get(d, k')
    ensures Keys(r) == if k in Keys(d) then Keys(d) else Keys(d) + [k]
    decreases |d|
  {
    if |d| == 0 then [(k, v)]
    else
      var e := d[0];
      var t := d[1..];
      assert d == [e] + t;
      if e.0 == k then
        PutHere(e, t, v);
        [(k, v)] + t
      else
        var rest := Put(t, k, v);
        PutBehind(e, t, rest, k, v);
        [e] + rest
  }
}

=== FILE: outcome.dfy ===
/** Failure-carrying result types shared by both generation pipelines. */
module Outcome {

  /** A value that may be absent (Python's `None`, or a missing dictionary entry). */
  datatype Option<+T> = None | Some(value: T) {
    function GetOr(default: T): T {
      match this
      case Some(v) => v
      case None => default
    }
  }

  /** The outcome of a computation that either produces a value or raises. */
  datatype Result<+T, +E> = Ok(value: T) | Err(error: E)
}

=== FILE: pyint.dfy ===
/** Python's `int(text)` on a string (base 10) and the decimal spelling of an
    integer, `str(n)`. */
module PyInt {
  import opened Outcome
  import opened PyText

  /** Python's default limit on the number of digits `int()` converts from
      text and `str()` renders. */
  const MaxStrDigits: nat := 4300

  predicate IsDigit(c: char) {
    '0' <= c <= '9'
  }

  function DigitValue(c: char): (d: nat)
    requires IsDigit(c)
    ensures d < 10
  {
    c as int - '0' as int
  }

  function DigitChar(d: nat): (c: char)
    requires d < 10
    ensures IsDigit(c) && DigitValue(c) == d
  {
    ('0' as int + d) as char
  }

  /** Only digits and underscores. */
  predicate DigitsOrUnderscores(s: string) {
    forall k :: 0 <= k < |s| ==> IsDigit(s[k]) || s[k] == '_'
  }

  /** What `int()` accepts after the optional sign: digits, where a single
      underscore may separate two digits. */
  predicate WellFormedDigits(s: string) {
    && |s| > 0
    && IsDigit(s[0])
    && IsDigit(s[|s| - 1])
    && DigitsOrUnderscores(s)
    && (forall k :: 0 <= k < |s| - 1 ==> !(s[k] == '_' && s[k + 1] == '_'))
  }

  /** The decimal value of the digits of `s`, underscores ignored. */
  function DigitsValue(s: string): nat
    requires DigitsOrUnderscores(s)
  {
    if |s| == 0 then 0
    else if s[|s| - 1] == '_' then DigitsValue(s[..|s| - 1])
    else DigitsValue(s[..|s| - 1]) * 10 + DigitValue(s[|s| - 1])
  }

  /** An underscore between digits does not change their value: `1_0` reads
      as `10`. */
  lemma {:induction false} UnderscoreValue(a: string, b: string)
    requires DigitsOrUnderscores(a) && DigitsOrUnderscores(b)
    ensures DigitsOrUnderscores(a + "_" + b) && DigitsOrUnderscores(a + b)
    ensures DigitsValue(a + "_" + b) == DigitsValue(a + b)
    decreases |b|
  {
    var s := a + "_" + b;
    var t := a + b;
    if |b| == 0 {
      assert s[..|s| - 1] == a;
      assert t == a;
    } else {
      var init := b[..|b| - 1];
      assert DigitsOrUnderscores(init);
      assert s[..|s| - 1] == a + "_" + init;
      assert t[..|t| - 1] == a + init;
      assert s[|s| - 1] == b[|b| - 1] == t[|t| - 1];
      UnderscoreValue(a, init);
    }
  }

  /** A leading zero does not change the value: `05` reads as `5`. */
  lemma {:induction false} LeadingZeroValue(s: string)
    requires DigitsOrUnderscores(s)
    ensures DigitsOrUnderscores("0" + s)
    ensures DigitsValue("0" + s) == DigitsValue(s)
    decreases |s|
  {
    var t := "0" + s;
    if |s| == 0 {
      assert t[..|t| - 1] == [];
    } else {
      var init := s[..|s| - 1];
      assert DigitsOrUnderscores(init);
      assert t[..|t| - 1] == "0" + init;
      assert t[|t| - 1] == s[|s| - 1];
      LeadingZeroValue(init);
    }
  }

  /** The number of digits in `s`; underscores and other characters are not
      counted. */
  function DigitCount(s: string): (n: nat)
    ensures n <= |s|
    ensures n == |s| <==> forall k :: 0 <= k < |s| ==> IsDigit(s[k])
  {
    if |s| == 0 then 0
    else
      var init := s[..|s| - 1];
      assert forall k :: 0 <= k < |init| ==> init[k] == s[k];
      DigitCount(init) + (if IsDigit(s[|s| - 1]) then 1 else 0)
  }

  /** The digits of two stretches of text are counted separately: an
      underscore or a sign between them adds nothing. */
  lemma {:induction false} DigitCountAppend(a: string, b: string)
    ensures DigitCount(a + b) == DigitCount(a) + DigitCount(b)
    decreases |b|
  {
    if |b| == 0 {
      assert a + b == a;
    } else {
      var ab := a + b;
      assert ab[..|ab| - 1] == a + b[..|b| - 1];
      assert ab[|ab| - 1] == b[|b| - 1];
      DigitCountAppend(a, b[..|b| - 1]);
    }
  }

  /** Underscores between digits do not count towards the digit limit. */
  lemma UnderscoreNotCounted(a: string, b: string)
    ensures DigitCount(a + "_" + b) == DigitCount(a) + DigitCount(b)
  {
    DigitCountAppend(a + "_", b);
    DigitCountAppend(a, "_");
  }

  /** A leading character that is not a digit, such as a sign, is not
      counted. */
  lemma SignNotCounted(t: string)
    requires |t| > 0 && !IsDigit(t[0])
    ensures DigitCount(t) == DigitCount(t[1..])
  {
    assert t == [t[0]] + t[1..];
    DigitCountAppend([t[0]], t[1..]);
  }

  /** Every character of a string of digits is counted. */
  lemma {:induction false} AllDigitsCount(s: string)
    requires forall k :: 0 <= k < |s| ==> IsDigit(s[k])
    ensures DigitCount(s) == |s|
  {
    if |s| > 0 {
      AllDigitsCount(s[..|s| - 1]);
    }
  }

  /** The characters `int()` skips around a numeral. A character below 128
      is kept as it is and C's `isspace` decides: tab, line feed, vertical
      tab, form feed, carriage return and space. Text with a character from
      128 up is first normalised, which turns each such `str.isspace`
      character into a space; the ASCII separators U+001C to U+001F stay
      and are not skipped. */
  predicate IntSpace(c: char) {
    if c as int < 128 then c == ' ' || '\t' <= c <= '\r' else IsSpace(c)
  }

  /** Skipping the leading characters `int()` skips. */
  function IntTrimStart(s: string): (r: string)
    ensures |r| <= |s| && r == s[|s| - |r|..]
    ensures forall k :: 0 <= k < |s| - |r| ==> IntSpace(s[k])
    ensures |r| > 0 ==> !IntSpace(r[0])
  {
    if |s| > 0 && IntSpace(s[0]) then IntTrimStart(s[1..]) else s
  }

  /** Skipping the trailing characters `int()` skips. */
  function IntTrimEnd(s: string): (r: string)
    ensures |r| <= |s| && r == s[..|r|]
    ensures forall k :: |r| <= k < |s| ==> IntSpace(s[k])
    ensures |r| > 0 ==> !IntSpace(r[|r| - 1])
  {
    if |s| > 0 && IntSpace(s[|s| - 1]) then IntTrimEnd(s[..|s| - 1]) else s
  }

  /** The numeral `int(s)` reads: `s` without the surrounding characters it skips. */
  function IntText(s: string): string {
    IntTrimEnd(IntTrimStart(s))
  }

  /** `int()` skips only characters `str.strip()` removes as well. */
  lemma IntSpaceIsSpace(c: char)
    requires IntSpace(c)
    ensures IsSpace(c)
  {
  }

  /** The separators U+001C to U+001F, which `str.strip()` removes, are
      never skipped by `int()`. */
  lemma SeparatorsNotSkipped(c: char)
    requires 0x1c <= c as int <= 0x1f
    ensures IsSpace(c) && !IntSpace(c)
  {
  }

  /** Text with no whitespace at either end is read as it is. */
  lemma IntTextUnchanged(s: string)
    requires |s| > 0 ==> !IsSpace(s[0]) && !IsSpace(s[|s| - 1])
    ensures IntText(s) == s
  {
    if |s| > 0 {
      assert !IntSpace(s[0]) by {
        if IntSpace(s[0]) {
          IntSpaceIsSpace(s[0]);
        }
      }
      assert IntTrimStart(s) == s;
      assert !IntSpace(s[|s| - 1]) by {
        if IntSpace(s[|s| - 1]) {
          IntSpaceIsSpace(s[|s| - 1]);
        }
      }
      assert IntTrimEnd(s) == s;
    }
  }

  /** Characters that are not skipped in front of the text stay in front of
      what is kept at its end. */
  lemma {:induction false} IntTrimEndAfter(p: string, s: string)
    requires |s| > 0 && !IntSpace(s[0])
    ensures IntTrimEnd(p + s) == p + IntTrimEnd(s)
    decreases |s|
  {
    var t := p + s;
    if IntSpace(s[|s| - 1]) {
      var init := s[..|s| - 1];
      assert t[..|t| - 1] == p + init;
      IntTrimEndAfter(p, init);
    }
  }

  /** `int(text.strip())` reads the stripped text as it is: the whitespace
      `int()` would skip is already gone. */
  lemma IntTextOfStripped(s: string)
    ensures IntText(Strip(s)) == Strip(s)
  {
    IntTextUnchanged(Strip(s));
  }

  /** Python's `int(s)`: `None` stands for the `ValueError` it raises. One
      leading sign is allowed, and at most `MaxStrDigits` digits. Non-ASCII
      decimal digits, which Python also accepts, are not modelled. */
  function ParseInt(s: string): (r: Option<int>)
    ensures r.Some? ==> var t := IntText(s);
      && |t| > 0
      && (forall k :: 1 <= k < |t| ==> IsDigit(t[k]) || t[k] == '_')
      && (IsDigit(t[0]) || t[0] == '+' || t[0] == '-')
      && IsDigit(t[|t| - 1])
    ensures r.Some? && r.value < 0 ==> IntText(s)[0] == '-'
    ensures r.Some? <==> Numeral(IntText(s))
  {
    ReadNumeral(IntText(s))
  }

  /** What `int()` accepts once the skipped characters are removed: digits,
      or a sign followed by digits, with at most `MaxStrDigits` digits. */
  predicate Numeral(t: string) {
    && DigitCount(t) <= MaxStrDigits
    && (WellFormedDigits(t) || (|t| > 0 && (t[0] == '+' || t[0] == '-') && WellFormedDigits(t[1..])))
  }

  /** The value of a numeral with the skipped characters already removed. */
  function ReadNumeral(t: string): (r: Option<int>)
    ensures r.Some? ==>
      && |t| > 0
      && (forall k :: 1 <= k < |t| ==> IsDigit(t[k]) || t[k] == '_')
      && (IsDigit(t[0]) || t[0] == '+' || t[0] == '-')
      && IsDigit(t[|t| - 1])
    ensures r.Some? && r.value < 0 ==> t[0] == '-'
    ensures r.Some? <==> Numeral(t)
  {
    if |t| > 0 && (t[0] == '+' || t[0] == '-') then
      var body := t[1..];
      SignNotCounted(t);
      if WellFormedDigits(body) && DigitCount(body) <= MaxStrDigits then
        SignedShape(t);
        var v: int := DigitsValue(body);
        Some(if t[0] == '-' then -v else v)
      else None
    else if WellFormedDigits(t) && DigitCount(t) <= MaxStrDigits then Some(DigitsValue(t))
    else None
  }

  /** A sign followed by well-formed digits has only digits and
      underscores after the sign, and ends with a digit. */
  lemma SignedShape(t: string)
    requires |t| > 0 && WellFormedDigits(t[1..])
    ensures forall k :: 1 <= k < |t| ==> IsDigit(t[k]) || t[k] == '_'
    ensures IsDigit(t[|t| - 1])
  {
    var body := t[1..];
    forall k | 1 <= k < |t|
      ensures IsDigit(t[k]) || t[k] == '_'
    {
      assert t[k] == body[k - 1];
    }
    assert t[|t| - 1] == body[|body| - 1];
  }

  /** The decimal digits of `n`, most significant first, without leading zeros. */
  function NatDigits(n: nat): (r: string)
    ensures WellFormedDigits(r)
    ensures forall k :: 0 <= k < |r| ==> IsDigit(r[k])
    ensures r[0] == '0' ==> n == 0
  {
    if n < 10 then [DigitChar(n)]
    else NatDigits(n / 10) + [DigitChar(n % 10)]
  }

  function Magnitude(n: int): nat {
    if n < 0 then -n else n
  }

  /** The decimal spelling of `n`, as `str(n)` prints it. */
  function ShowInt(n: int): (r: string)
    ensures |r| > 0
  {
    if n < 0 then "-" + NatDigits(-n) else NatDigits(n)
  }

  /** `n` has at most `MaxStrDigits` digits, so `str(n)` succeeds and `int`
      reads its spelling back. */
  predicate WithinDigitLimit(n: int) {
    |NatDigits(Magnitude(n))| <= MaxStrDigits
  }

  /** Reading back the digits of `n` gives `n`. */
  lemma {:induction false} NatDigitsValue(n: nat)
    ensures DigitsValue(NatDigits(n)) == n
  {
    var r := NatDigits(n);
    if n >= 10 {
      NatDigitsValue(n / 10);
      assert r[..|r| - 1] == NatDigits(n / 10);
    }
  }

  /** `int` reads a string of digits as its value, unless there are more
      than `MaxStrDigits` of them. */
  lemma ParseDigits(d: string)
    requires WellFormedDigits(d) && forall k :: 0 <= k < |d| ==> IsDigit(d[k])
    ensures ParseInt(d) == if |d| <= MaxStrDigits then Some(DigitsValue(d) as int) else None
  {
    AllDigitsCount(d);
    IntTextUnchanged(d);
    assert ParseInt(d) == ReadNumeral(d);
    UnsignedNumeral(d);
  }

  /** `int` reads a numeral that starts with a digit as the value of its
      digits. */
  lemma UnsignedNumeral(d: string)
    requires |d| > 0 && IsDigit(d[0])
    ensures ReadNumeral(d) == if WellFormedDigits(d) && DigitCount(d) <= MaxStrDigits
                              then Some(DigitsValue(d) as int) else None
  {
  }

  /** `int` reads a numeral that starts with a minus sign as the negated
      value of the digits after it. */
  lemma MinusNumeral(t: string, d: string)
    requires |t| > 0 && t[0] == '-' && t[1..] == d
    ensures ReadNumeral(t) == if WellFormedDigits(d) && DigitCount(d) <= MaxStrDigits
                              then Some(-(DigitsValue(d) as int)) else None
  {
  }

  /** A minus sign followed by text that ends in a digit has nothing for
      `int()` to skip. */
  /** A '+' in front of digits reads as the digits alone. */
  lemma PlusNumeral(t: string, d: string)
    requires |t| > 0 && t[0] == '+' && t[1..] == d && |d| > 0 && IsDigit(d[0])
    ensures ReadNumeral(t) == ReadNumeral(d)
  {
  }

  /** A leading '+' does not change what `int()` reads: `int("+5") == int("5")`. */
  lemma ParsePlus(s: string)
    requires |s| > 0 && IsDigit(s[0])
    ensures ParseInt("+" + s) == ParseInt(s)
  {
    var t := "+" + s;
    assert IntTrimStart(t) == t;
    assert IntTrimStart(s) == s;
    IntTrimEndAfter("+", s);
    var d := IntText(s);
    assert |d| > 0 && d[0] == s[0];
    var u := IntText(t);
    assert u == "+" + d;
    assert u[1..] == d;
    PlusNumeral(u, d);
  }

  lemma MinusText(d: string)
    requires |d| > 0 && IsDigit(d[|d| - 1])
    ensures IntText("-" + d) == "-" + d
  {
    var s := "-" + d;
    assert s[|s| - 1] == d[|d| - 1];
    IntTextUnchanged(s);
  }

  /** `int` reads a minus sign followed by digits as the negated value,
      unless there are more than `MaxStrDigits` digits. */
  lemma ParseMinusDigits(d: string)
    requires WellFormedDigits(d) && forall k :: 0 <= k < |d| ==> IsDigit(d[k])
    ensures ParseInt("-" + d) == if |d| <= MaxStrDigits then Some(-(DigitsValue(d) as int)) else None
  {
    AllDigitsCount(d);
    MinusText(d);
    var t := "-" + d;
    assert t[1..] == d;
    MinusNumeral(t, d);
  }

  /** `int` reads back the digits of a natural number, unless there are more
      than `MaxStrDigits` of them. */
  lemma ParseNatDigits(m: nat)
    ensures ParseInt(NatDigits(m)) == if |NatDigits(m)| <= MaxStrDigits then Some(m) else None
  {
    NatDigitsValue(m);
    ParseDigits(NatDigits(m));
  }

  /** `int` reads back a minus sign followed by the digits of a natural
      number, unless there are more than `MaxStrDigits` of them. */
  lemma ParseNegativeDigits(m: nat)
    ensures ParseInt("-" + NatDigits(m)) == if |NatDigits(m)| <= MaxStrDigits then Some(-(m as int)) else None
  {
    NatDigitsValue(m);
    ParseMinusDigits(NatDigits(m));
  }

  /** The spelling of an integer has no whitespace to strip. */
  lemma ShowIntStripped(n: int)
    ensures Strip(ShowInt(n)) == ShowInt(n)
  {
    var s := ShowInt(n);
    var d := NatDigits(Magnitude(n));
    assert s[|s| - 1] == d[|d| - 1];
    assert s[0] == '-' || s[0] == d[0];
    StripUnchanged(s);
  }

  /** `int(str(n)) == n` exactly when `n` has at most `MaxStrDigits` digits;
      a longer spelling is rejected. */
  lemma ParseShowInt(n: int)
    ensures ParseInt(ShowInt(n)) == if WithinDigitLimit(n) then Some(n) else None
  {
    var m := Magnitude(n);
    if n < 0 {
      assert ShowInt(n) == "-" + NatDigits(m);
      ParseNegativeDigits(m);
    } else {
      assert ShowInt(n) == NatDigits(m);
      ParseNatDigits(m);
    }
  }
}

=== FILE: pytext.dfy ===
/** The Python string operations both pipelines rely on: `str.strip()`,
    `str.replace(old, new)`, `str.endswith` and ASCII lower-casing. */
module PyText {

  /** Python's `str.isspace` for one character: the characters `str.strip()`
      with no argument removes. */
  predicate IsSpace(c: char) {
    var n := c as int;
    || n == 0x20 || (0x09 <= n <= 0x0d) || (0x1c <= n <= 0x1f)
    || n == 0x85 || n == 0xa0 || n == 0x1680 || (0x2000 <= n <= 0x200a)
    || n == 0x2028 || n == 0x2029 || n == 0x202f || n == 0x205f || n == 0x3000
  }

  /** `s.lstrip()`: drops the longest all-whitespace prefix. */
  function TrimStart(s: string): (r: string)
    ensures |r| <= |s| && r == s[|s| - |r|..]
    ensures forall k :: 0 <= k < |s| - |r| ==> IsSpace(s[k])
    ensures |r| > 0 ==> !IsSpace(r[0])
  {
    if |s| > 0 && IsSpace(s[0]) then TrimStart(s[1..]) else s
  }

  /** `s.rstrip()`: drops the longest all-whitespace suffix. */
  function TrimEnd(s: string): (r: string)
    ensures |r| <= |s| && r == s[..|r|]
    ensures forall k :: |r| <= k < |s| ==> IsSpace(s[k])
    ensures |r| > 0 ==> !IsSpace(r[|r| - 1])
  {
    if |s| > 0 && IsSpace(s[|s| - 1]) then TrimEnd(s[..|s| - 1]) else s
  }

  /** `r` is the infix of `s` at index `i`, and everything around it is whitespace. */
  ghost predicate SpaceAround(s: string, r: string, i: int) {
    && 0 <= i <= |s| - |r|
    && r == s[i..i + |r|]
    && (forall k :: 0 <= k < i ==> IsSpace(s[k]))
    && (forall k :: i + |r| <= k < |s| ==> IsSpace(s[k]))
  }

  /** `s.strip()`: the infix left after removing leading and trailing whitespace. */
  function Strip(s: string): (r: string)
    ensures |r| <= |s|
    ensures exists i :: SpaceAround(s, r, i)
    ensures |r| > 0 ==> !IsSpace(r[0]) && !IsSpace(r[|r| - 1])
  {
    var t := TrimStart(s);
    var r := TrimEnd(t);
    TrimBoth(s, t, r);
    r
  }

  /** Trimming the end of a trimmed start leaves an infix with only
      whitespace around it. */
  lemma TrimBoth(s: string, t: string, r: string)
    requires |t| <= |s| && t == s[|s| - |t|..] && forall k :: 0 <= k < |s| - |t| ==> IsSpace(s[k])
    requires |r| <= |t| && r == t[..|r|] && forall k :: |r| <= k < |t| ==> IsSpace(t[k])
    ensures SpaceAround(s, r, |s| - |t|)
  {
    var i := |s| - |t|;
    assert r == s[i..i + |r|];
    forall k | i + |r| <= k < |s|
      ensures IsSpace(s[k])
    {
      assert s[k] == t[k - i];
    }
  }

  /** Every character of `Strip(s)` is a character of `s`. */
  lemma StripChars(s: string, c: char)
    requires c in Strip(s)
    ensures c in s
  {
    var r := Strip(s);
    var i :| SpaceAround(s, r, i);
    var k :| 0 <= k < |r| && r[k] == c;
    assert s[i + k] == c;
  }

  /** Whitespace in front of text that starts with a non-space is what
      `lstrip()` removes. */
  lemma {:induction false} TrimStartSpaces(pre: string, x: string)
    requires forall k :: 0 <= k < |pre| ==> IsSpace(pre[k])
    requires |x| > 0 && !IsSpace(x[0])
    ensures TrimStart(pre + x) == x
    decreases |pre|
  {
    if |pre| > 0 {
      assert (pre + x)[1..] == pre[1..] + x;
      TrimStartSpaces(pre[1..], x);
    } else {
      assert pre + x == x;
    }
  }

  /** Whitespace after text that ends with a non-space is what `rstrip()`
      removes. */
  lemma {:induction false} TrimEndSpaces(x: string, post: string)
    requires forall k :: 0 <= k < |post| ==> IsSpace(post[k])
    requires |x| > 0 && !IsSpace(x[|x| - 1])
    ensures TrimEnd(x + post) == x
    decreases |post|
  {
    if |post| > 0 {
      assert (x + post)[..|x + post| - 1] == x + post[..|post| - 1];
      TrimEndSpaces(x, post[..|post| - 1]);
    } else {
      assert x + post == x;
    }
  }

  /** `strip()` removes exactly the whitespace around text that neither
      starts nor ends with whitespace. */
  lemma StripAround(pre: string, x: string, post: string)
    requires forall k :: 0 <= k < |pre| ==> IsSpace(pre[k])
    requires forall k :: 0 <= k < |post| ==> IsSpace(post[k])
    requires |x| > 0 && !IsSpace(x[0]) && !IsSpace(x[|x| - 1])
    ensures Strip(pre + x + post) == x
  {
    var xp := x + post;
    assert pre + x + post == pre + xp;
    assert xp[0] == x[0];
    TrimStartSpaces(pre, xp);
    TrimEndSpaces(x, post);
  }

  /** A string that neither starts nor ends with whitespace is its own strip. */
  lemma StripUnchanged(s: string)
    requires |s| > 0 ==> !IsSpace(s[0]) && !IsSpace(s[|s| - 1])
    ensures Strip(s) == s
  {
  }

  /** `pat` occurs in `s` starting at index `i`. */
  predicate OccursAt(s: string, pat: string, i: int) {
    0 <= i && i + |pat| <= |s| && s[i..i + |pat|] == pat
  }

  /** Python's `pat in s`. */
  ghost predicate Contains(s: string, pat: string) {
    exists i :: OccursAt(s, pat, i)
  }

  /** Python's `s.endswith(suffix)`. */
  predicate EndsWith(s: string, suffix: string) {
    |suffix| <= |s| && s[|s| - |suffix|..] == suffix
  }

  /** Python's `s.replace(pat, rep)` for a non-empty `pat`: one left-to-right
      scan that replaces non-overlapping occurrences and never re-examines
      replaced text. */
  function ReplaceAll(s: string, pat: string, rep: string): (r: string)
    requires |pat| > 0
    ensures forall c :: c in r ==> c in s || c in rep
    decreases |s|
  {
    if |s| < |pat| then s
    else if pat <= s then rep + ReplaceAll(s[|pat|..], pat, rep)
    else [s[0]] + ReplaceAll(s[1..], pat, rep)
  }

  /** When the first character of `pat` does not occur in `s`, replacing
      leaves `s` unchanged. */
  lemma {:induction false} ReplaceAbsent(s: string, pat: string, rep: string)
    requires |pat| > 0 && pat[0] !in s
    ensures ReplaceAll(s, pat, rep) == s
    decreases |s|
  {
    if |s| < |pat| {
    } else {
      assert s[0] != pat[0];
      assert !(pat <= s);
      ReplaceAbsent(s[1..], pat, rep);
      assert [s[0]] + s[1..] == s;
    }
  }

  /** Text before which the pattern cannot start is copied, and the scan
      goes on after it. */
  lemma {:induction false} ReplaceSkip(a: string, t: string, pat: string, rep: string)
    requires |pat| > 0 && pat[0] !in a
    ensures ReplaceAll(a + t, pat, rep) == a + ReplaceAll(t, pat, rep)
    decreases |a|
  {
    var s := a + t;
    if |a| == 0 {
      assert s == t;
    } else if |s| < |pat| {
      assert ReplaceAll(t, pat, rep) == t;
    } else {
      assert s[0] == a[0] != pat[0];
      assert !(pat <= s);
      assert s[1..] == a[1..] + t;
      ReplaceSkip(a[1..], t, pat, rep);
      assert [a[0]] + a[1..] == a;
    }
  }

  // ---------------------------------------------------------------------------
  // Code fences.

  const Fence: string := "```"

  /** A string that does not start with a backtick keeps its first character when the
      fences are removed. */
  lemma RemoveFenceKeepsHead(u: string)
    requires |u| > 0 && u[0] != '`'
    ensures |ReplaceAll(u, Fence, "")| > 0 && ReplaceAll(u, Fence, "")[0] == u[0]
  {
    if |u| >= |Fence| {
      assert u[..3][0] == u[0];
    }
  }

  /** Removing fences from a string that does not start with two backticks
      cannot produce a string that starts with two backticks. */
  lemma RemoveFenceNoDoubleHead(t: string)
    requires !(|t| >= 2 && t[0] == '`' && t[1] == '`')
    ensures var r := ReplaceAll(t, Fence, "");
            !(|r| >= 2 && r[0] == '`' && r[1] == '`')
  {
    if |t| >= |Fence| {
      assert t[..3][0] == t[0] && t[..3][1] == t[1];
      assert ReplaceAll(t, Fence, "") == [t[0]] + ReplaceAll(t[1..], Fence, "");
      if t[0] == '`' {
        RemoveFenceKeepsHead(t[1..]);
      }
    }
  }

  /** Putting one character in front of a string without "```" creates no
      "```", unless the character is a backtick and the string starts with
      two. */
  lemma FenceFreeCons(c: char, rt: string)
    requires !Contains(rt, Fence)
    requires c == '`' ==> !(|rt| >= 2 && rt[0] == '`' && rt[1] == '`')
    ensures !Contains([c] + rt, Fence)
  {
    var r := [c] + rt;
    forall i | 0 <= i && i + 3 <= |r|
      ensures !OccursAt(r, Fence, i)
    {
      if i == 0 {
        assert r[..3][0] == c && r[..3][1] == rt[0] && r[..3][2] == rt[1];
      } else {
        assert r[i..i + 3] == rt[i - 1..i - 1 + 3];
        assert !OccursAt(rt, Fence, i - 1);
      }
    }
  }

  /** After every "```" has been removed in one scan, none is left: the scan
      only resumes after a removed fence at a character that is not a
      backtick, so no new fence can form across a removal. */
  lemma {:induction false} RemoveFenceLeavesNone(s: string)
    ensures !Contains(ReplaceAll(s, Fence, ""), Fence)
    decreases |s|
  {
    if |s| < |Fence| {
      assert |ReplaceAll(s, Fence, "")| < 3;
    } else if Fence <= s {
      RemoveFenceLeavesNone(s[3..]);
      assert ReplaceAll(s, Fence, "") == ReplaceAll(s[3..], Fence, "");
    } else {
      var t := s[1..];
      RemoveFenceLeavesNone(t);
      assert ReplaceAll(s, Fence, "") == [s[0]] + ReplaceAll(t, Fence, "");
      assert s[..3][0] == s[0] && s[..3][1] == t[0] && s[..3][2] == t[1];
      if s[0] == '`' {
        RemoveFenceNoDoubleHead(t);
      }
      FenceFreeCons(s[0], ReplaceAll(t, Fence, ""));
    }
  }

  // ---------------------------------------------------------------------------
  // The ".csv" suffix.

  const Csv: string := ".csv"

  /** Appending to a string that ends with `x` keeps it ending with `x`. */
  lemma EndsWithPrepend(a: string, b: string, x: string)
    requires EndsWith(b, x)
    ensures EndsWith(a + b, x)
  {
    assert (a + b)[|a + b| - |x|..] == b[|b| - |x|..];
  }

  /** ".csv" cannot overlap itself: a string that starts and ends with ".csv"
      and is longer than it holds two disjoint copies. */
  lemma CsvNoSelfOverlap(s: string)
    requires Csv <= s && EndsWith(s, Csv) && |s| > |Csv|
    ensures |s| >= 2 * |Csv|
  {
    assert s[|s| - 4] == s[|s| - 4..][0] == '.';
    assert forall k :: 0 <= k < 4 ==> s[k] == s[..4][k] == Csv[k];
  }

  /** Replacing ".csv" in a name that ends with ".csv" yields a name that
      ends with the replacement. */
  lemma {:induction false} ReplaceCsvKeepsSuffix(s: string, rep: string)
    requires EndsWith(s, Csv)
    ensures EndsWith(ReplaceAll(s, Csv, rep), rep)
    decreases |s|
  {
    if |s| == |Csv| {
      assert s == Csv;
      assert ReplaceAll(s, Csv, rep) == rep + ReplaceAll([], Csv, rep);
    } else if Csv <= s {
      CsvNoSelfOverlap(s);
      var t := s[4..];
      assert EndsWith(t, Csv) by {
        assert t[|t| - 4..] == s[|s| - 4..];
      }
      ReplaceCsvKeepsSuffix(t, rep);
      EndsWithPrepend(rep, ReplaceAll(t, Csv, rep), rep);
    } else {
      var t := s[1..];
      assert EndsWith(t, Csv) by {
        assert t[|t| - 4..] == s[|s| - 4..];
      }
      ReplaceCsvKeepsSuffix(t, rep);
      EndsWithPrepend([s[0]], ReplaceAll(t, Csv, rep), rep);
    }
  }

  /** When ".csv" occurs nowhere in a non-empty `base`, it does not start
      `base + ".csv" + rest` either. */
  lemma CsvNotAtHead(base: string, rest: string)
    requires |base| > 0 && !Contains(base, Csv)
    ensures !(Csv <= base + Csv + rest)
  {
    var s := base + Csv + rest;
    if |base| >= 4 {
      assert s[..4] == base[..4];
      assert !OccursAt(base, Csv, 0);
    } else {
      assert s[|base|] == '.';
      assert s[..4][|base|] == s[|base|];
    }
  }

  /** A string without ".csv" has none in its tail. */
  lemma CsvAbsentFromTail(base: string)
    requires |base| > 0 && !Contains(base, Csv)
    ensures !Contains(base[1..], Csv)
  {
    var b := base[1..];
    forall i | 0 <= i && i + 4 <= |b|
      ensures !OccursAt(b, Csv, i)
    {
      assert b[i..i + 4] == base[i + 1..i + 1 + 4];
      assert !OccursAt(base, Csv, i + 1);
    }
  }

  /** When ".csv" occurs nowhere in `base`, the first occurrence in
      `base + ".csv" + rest` is the one after `base`: it is replaced, and the
      scan resumes on `rest`. */
  lemma {:induction false} ReplaceCsvFirst(base: string, rest: string, rep: string)
    requires !Contains(base, Csv)
    ensures ReplaceAll(base + Csv + rest, Csv, rep) == base + rep + ReplaceAll(rest, Csv, rep)
    decreases |base|
  {
    var s := base + Csv + rest;
    if |base| == 0 {
      assert s == Csv + rest;
      assert s[|Csv|..] == rest;
    } else {
      CsvNotAtHead(base, rest);
      CsvAbsentFromTail(base);
      var b := base[1..];
      assert s[1..] == b + Csv + rest;
      ReplaceCsvFirst(b, rest, rep);
      assert [base[0]] + (b + rep + ReplaceAll(rest, Csv, rep)) == base + rep + ReplaceAll(rest, Csv, rep);
    }
  }

  /** When ".csv" occurs nowhere in `base`, the only occurrence in
      `base + ".csv"` is the suffix, and replacing it gives `base + rep`. */
  lemma ReplaceCsvOnlySuffix(base: string, rep: string)
    requires !Contains(base, Csv)
    ensures ReplaceAll(base + Csv, Csv, rep) == base + rep
  {
    ReplaceCsvFirst(base, [], rep);
    assert base + Csv + [] == base + Csv;
    assert ReplaceAll([], Csv, rep) == [];
  }

  // ---------------------------------------------------------------------------
  // Lower-casing.

  /** `c.lower()` restricted to ASCII letters. */
  function AsciiLowerChar(c: char): (r: char)
    ensures 'A' <= c <= 'Z' ==> 'a' <= r <= 'z' && r as int - c as int == 32
    ensures !('A' <= c <= 'Z') ==> r == c
  {
    if 'A' <= c <= 'Z' then (c as int + 32) as char else c
  }

  /** `s.lower()` restricted to ASCII letters. */
  function AsciiLower(s: string): (r: string)
    ensures |r| == |s|
    ensures forall k :: 0 <= k < |s| ==> r[k] == AsciiLowerChar(s[k])
  {
    if |s| == 0 then [] else [AsciiLowerChar(s[0])] + AsciiLower(s[1..])
  }
}

=== FILE: service.dfy ===
/** The generative-text service as both pipelines see it: one call either
    returns a response whose `.text` is available, or raises. */
module Service {

  datatype Reply =
    | Answer(text: string)  // `model.generate_content(prompt).text`
    | ServiceError          // the call, or reading `.text`, raised
}

=== FILE: test_strategist.dfy ===
/** The plan-driven pipeline: the service drafts a test plan, advises a row
    count, and produces rows for each scenario, which are tagged with their
    scenario and concatenated.

    The service is an explicit input: `Reply` values for the plan and the
    advice, and `replies(k)` for the call made for scenario `k`. `json.loads`
    is the explicit function `parse`. */
module TestStrategist {
  import opened Outcome
  import opened PyText
  import opened PyInt
  import opened Json
  import opened Service
  import opened CsvOutput

  const JsonFence: string := "```json"
  const ScenariosKey: string := "scenarios"
  const DescriptionKey: string := "description"

  /** The row count used whenever no other can be had. */
  const DefaultRows: int := 3

  // ---------------------------------------------------------------------------
  // Cleaning a reply.

  /** `text.strip().replace("```json", "").replace("```", "")`. */
  function CleanReply(text: string): (r: string)
    ensures !Contains(r, Fence)
  {
    var unfenced := ReplaceAll(Strip(text), JsonFence, "");
    RemoveFenceLeavesNone(unfenced);
    ReplaceAll(unfenced, Fence, "")
  }

  /** A reply without a backtick is only trimmed. */
  lemma CleanReplyNoBacktick(text: string)
    requires '`' !in text
    ensures CleanReply(text) == Strip(text)
  {
    var t := Strip(text);
    if '`' in t {
      StripChars(text, '`');
    }
    ReplaceAbsent(t, JsonFence, "");
    ReplaceAbsent(t, Fence, "");
  }

  /** The usual fenced reply: whitespace, "```json", a body with no
      backtick, "```", whitespace. Cleaning leaves exactly the body; the
      fences keep the outer `strip()` from touching the body's own
      whitespace. */
  lemma CleanFencedJson(pre: string, body: string, post: string)
    requires forall k :: 0 <= k < |pre| ==> IsSpace(pre[k])
    requires forall k :: 0 <= k < |post| ==> IsSpace(post[k])
    requires '`' !in body
    ensures CleanReply(pre + JsonFence + body + Fence + post) == body
  {
    var text := pre + JsonFence + body + Fence + post;
    var x := JsonFence + body + Fence;
    assert text == pre + x + post;
    assert x[0] == '`' && x[|x| - 1] == '`';
    StripAround(pre, x, post);
    UnfenceJson(body);
    DropClosingFence(body);
  }

  /** Removing "```json" from a fenced body leaves the body and the closing
      fence. */
  lemma UnfenceJson(body: string)
    requires '`' !in body
    ensures ReplaceAll(JsonFence + body + Fence, JsonFence, "") == body + Fence
  {
    var x := JsonFence + body + Fence;
    assert JsonFence <= x && x[|JsonFence|..] == body + Fence;
    ReplaceSkip(body, Fence, JsonFence, "");
  }

  /** Removing "```" from a body followed by the closing fence leaves the
      body. */
  lemma DropClosingFence(body: string)
    requires '`' !in body
    ensures ReplaceAll(body + Fence, Fence, "") == body
  {
    ReplaceSkip(body, Fence, Fence, "");
    assert ReplaceAll(Fence, Fence, "") == "" + ReplaceAll("", Fence, "");
  }

  // ---------------------------------------------------------------------------
  // generate_test_plan.

  /** The parsed plan is usable: `plan['scenarios']` exists and `len` of it
      succeeds. */
  predicate AcceptablePlan(plan: Json) {
    && plan.JObject?
    && Get(plan.members, ScenariosKey).Some?
    && Get(plan.members, ScenariosKey).value.HasLength()
  }

  /** `generate_test_plan`: the parsed plan, or `None` when the service
      fails, the cleaned reply does not parse, or the plan has no
      `'scenarios'` with a length. */
  function GenerateTestPlan(reply: Reply, parse: string -> Parsed): (r: Option<Json>)
    ensures r.Some? <==> reply.Answer? && parse(CleanReply(reply.text)).Parsed?
                         && AcceptablePlan(parse(CleanReply(reply.text)).value)
    ensures r.Some? ==> r.value == parse(CleanReply(reply.text)).value
  {
    match reply
    case ServiceError => None
    case Answer(text) =>
      match parse(CleanReply(text))
      case ParseError => None
      case Parsed(plan) => if AcceptablePlan(plan) then Some(plan) else None
  }

  /** A plan whose `'scenarios'` is an empty list is accepted as it is. */
  lemma ZeroScenariosAccepted(text: string, parse: string -> Parsed, others: Dict)
    requires parse(CleanReply(text)) == Parsed(JObject([(ScenariosKey, JArray([]))] + others))
    ensures GenerateTestPlan(Answer(text), parse) == Some(JObject([(ScenariosKey, JArray([]))] + others))
  {
    assert Get([(ScenariosKey, JArray([]))] + others, ScenariosKey) == Some(JArray([]));
  }

  /** Neither a service failure nor a plan that is not a dictionary is
      accepted. */
  lemma RejectedPlans(text: string, parse: string -> Parsed)
    ensures GenerateTestPlan(ServiceError, parse).None?
    ensures !parse(CleanReply(text)).Parsed? ==> GenerateTestPlan(Answer(text), parse).None?
    ensures parse(CleanReply(text)).Parsed? && !parse(CleanReply(text)).value.JObject?
            ==> GenerateTestPlan(Answer(text), parse).None?
  {
  }

  // ---------------------------------------------------------------------------
  // get_ideal_row_count and the rows-per-scenario decision.

  /** `get_ideal_row_count`: the integer the trimmed reply spells, or 3 when
      the service fails or the reply is not an integer. */
  function GetIdealRowCount(advice: Reply): (r: int)
    ensures advice.ServiceError? ==> r == DefaultRows
    ensures advice.Answer? && ParseInt(Strip(advice.text)).None? ==> r == DefaultRows
    ensures advice.Answer? && ParseInt(Strip(advice.text)).Some? ==> r == ParseInt(Strip(advice.text)).value
  {
    match advice
    case ServiceError => DefaultRows
    case Answer(text) => ParseInt(Strip(text)).GetOr(DefaultRows)
  }

  /** Whatever integer the service spells is used, with no lower bound: zero
      and negative counts pass through. An integer of more than
      `MaxStrDigits` digits makes `int` raise, and 3 is used. */
  lemma IdealRowCountRoundTrip(n: int)
    ensures GetIdealRowCount(Answer(ShowInt(n))) == if WithinDigitLimit(n) then n else DefaultRows
  {
    ShowIntStripped(n);
    ParseShowInt(n);
  }

  /** The inputs that ask for the advisor, compared after ASCII lower-casing.
      No non-ASCII character lower-cases to a letter of these words, so this
      is exactly `rows_input.lower() in ['ideal', 'ai', 'auto']`. */
  predicate AsksAdvisor(input: string): (b: bool)
    ensures b ==> |input| == 2 || |input| == 4 || |input| == 5
  {
    var low := AsciiLower(input);
    low == "ideal" || low == "ai" || low == "auto"
  }

  /** The rows-per-scenario decision of the entry point: the advisor's
      answer for a keyword, otherwise `int(rows_input)`, falling back to 3. */
  function RowsPerScenario(input: string, advice: Reply): (r: int)
    ensures AsksAdvisor(input) ==> r == GetIdealRowCount(advice)
    ensures !AsksAdvisor(input) && ParseInt(input).Some? ==> r == ParseInt(input).value
    ensures !AsksAdvisor(input) && ParseInt(input).None? ==> r == DefaultRows
  {
    if AsksAdvisor(input) then GetIdealRowCount(advice)
    else ParseInt(input).GetOr(DefaultRows)
  }

  /** `input` spells the lower-case word `kw` with any of its letters in
      upper case. */
  predicate CaseVariant(input: string, kw: string) {
    && |input| == |kw|
    && forall k :: 0 <= k < |kw| ==>
         input[k] == kw[k] || ('a' <= kw[k] <= 'z' && input[k] as int == kw[k] as int - 32)
  }

  /** Lower-casing gives a lower-case word exactly for its case variants. */
  lemma LowerIsWord(input: string, kw: string)
    requires forall k :: 0 <= k < |kw| ==> 'a' <= kw[k] <= 'z'
    ensures AsciiLower(input) == kw <==> CaseVariant(input, kw)
  {
    var low := AsciiLower(input);
    if low == kw {
      forall k | 0 <= k < |kw|
        ensures input[k] == kw[k] || ('a' <= kw[k] <= 'z' && input[k] as int == kw[k] as int - 32)
      {
        assert low[k] == AsciiLowerChar(input[k]);
      }
    }
    if CaseVariant(input, kw) {
      forall k | 0 <= k < |kw|
        ensures low[k] == kw[k]
      {
        assert low[k] == AsciiLowerChar(input[k]);
      }
      assert low == kw;
    }
  }

  /** The keywords are recognised in any letter case, and nothing else asks
      for the advisor. */
  lemma AdvisorKeywords(input: string)
    ensures AsksAdvisor(input)
            <==> CaseVariant(input, "ideal") || CaseVariant(input, "ai") || CaseVariant(input, "auto")
  {
    LowerIsWord(input, "ideal");
    LowerIsWord(input, "ai");
    LowerIsWord(input, "auto");
  }

  /** A typed integer is used as it is, whatever its sign, unless it has
      more than `MaxStrDigits` digits, when 3 is used. */
  lemma RowsTypedInteger(n: int, advice: Reply)
    ensures RowsPerScenario(ShowInt(n), advice) == if WithinDigitLimit(n) then n else DefaultRows
  {
    IntegerIsNoKeyword(n);
    ParseShowInt(n);
  }

  /** The text of an integer ends with a digit, so it is never a keyword. */
  lemma IntegerIsNoKeyword(n: int)
    ensures !AsksAdvisor(ShowInt(n))
  {
    var s := ShowInt(n);
    var d := if n < 0 then NatDigits(-n) else NatDigits(n);
    assert s[|s| - 1] == d[|d| - 1];
    var low := AsciiLower(s);
    assert IsDigit(low[|low| - 1]) by {
      assert low[|low| - 1] == AsciiLowerChar(s[|s| - 1]);
    }
    assert !IsDigit("ideal"[4]) && !IsDigit("ai"[1]) && !IsDigit("auto"[3]);
  }

  // ---------------------------------------------------------------------------
  // generate_data_for_plan.

  /** Why `generate_data_for_plan` itself raised: these happen outside its
      `try`, so they abort the whole call. */
  datatype PlanError =
    | AttributeError  // `plan.get` on a plan that is not a dictionary
    | KeyError        // a missing `'scenarios'` or scenario key
    | TypeError       // `'scenarios'` is not iterable, or a scenario is not a dictionary

  /** The three keys read from each scenario. */
  datatype Scenario = Scenario(name: Json, description: Json, testType: Json)

  /** What `for scenario in plan["scenarios"]` iterates over: a list's items,
      a dictionary's keys, or a string's characters. */
  function ScenarioItems(plan: Json): (r: Result<seq<Json>, PlanError>)
    ensures r.Ok? <==> plan.JObject? && Get(plan.members, ScenariosKey).Some?
                       && Get(plan.members, ScenariosKey).value.HasLength()
    ensures r.Err? ==> r.error == if !plan.JObject? then AttributeError
                                  else if Get(plan.members, ScenariosKey).None? then KeyError
                                  else TypeError
    ensures r.Ok? ==> var v := Get(plan.members, ScenariosKey).value;
      && (v.JArray? ==> r.value == v.items)
      && (v.JObject? ==> |r.value| == |v.members|
                         && forall k :: 0 <= k < |v.members| ==> r.value[k] == JString(v.members[k].0))
      && (v.JString? ==> |r.value| == |v.s|
                         && forall k :: 0 <= k < |v.s| ==> r.value[k] == JString([v.s[k]]))
  {
    if !plan.JObject? then Err(AttributeError)
    else match Get(plan.members, ScenariosKey)
      case None => Err(KeyError)
      case Some(s) =>
        match s
        case JArray(items) => Ok(items)
        case JObject(m) => Ok(seq(|m|, k requires 0 <= k < |m| => JString(m[k].0)))
        case JString(t) => Ok(seq(|t|, k requires 0 <= k < |t| => JString([t[k]])))
        case _ => Err(TypeError)
  }

  /** `scenario["scenario_name"]`, `scenario["description"]`,
      `scenario["test_type"]`, in that order. */
  function ReadScenario(item: Json): (r: Result<Scenario, PlanError>)
    ensures r.Ok? <==> item.JObject? && ScenarioName in Keys(item.members)
                       && DescriptionKey in Keys(item.members) && TestType in Keys(item.members)
    ensures r.Ok? ==> Get(item.members, ScenarioName) == Some(r.value.name)
                      && Get(item.members, TestType) == Some(r.value.testType)
  {
    if !item.JObject? then Err(TypeError)
    else
      var name := Get(item.members, ScenarioName);
      var description := Get(item.members, DescriptionKey);
      var testType := Get(item.members, TestType);
      if name.None? || description.None? || testType.None? then Err(KeyError)
      else Ok(Scenario(name.value, description.value, testType.value))
  }

  /** `row['scenario_name'] = scenario_name; row['test_type'] = test_type`. */
  function Tag(row: Dict, sc: Scenario): (r: Dict)
    ensures Get(r, ScenarioName) == Some(sc.name)
    ensures Get(r, TestType) == Some(sc.testType)
    ensures forall k :: k != ScenarioName && k != TestType ==> Get(r, k) == Get(row, k)
  {
    Put(Put(row, ScenarioName, sc.name), TestType, sc.testType)
  }

  /** The rows a scenario adds for the parsed reply `v`, or `None` when
      tagging raises and the scenario is skipped. A list adds its items,
      each tagged, provided every item is a dictionary; an empty dictionary
      or an empty string adds nothing; anything else raises. */
  function ScenarioRows(v: Json, sc: Scenario): (r: Option<seq<Dict>>)
    ensures v.JArray? ==> (r.Some? <==> forall k :: 0 <= k < |v.items| ==> v.items[k].JObject?)
    ensures r.Some? && v.JArray? ==> |r.value| == |v.items|
    ensures r.Some? && v.JArray? ==> forall k :: 0 <= k < |r.value| ==> r.value[k] == Tag(v.items[k].members, sc)
    ensures r.Some? && !v.JArray? ==> r.value == []
    ensures r.Some? ==> forall k :: 0 <= k < |r.value| ==>
              Get(r.value[k], ScenarioName) == Some(sc.name) && Get(r.value[k], TestType) == Some(sc.testType)
  {
    match v
    case JArray(items) =>
      if forall k :: 0 <= k < |items| ==> items[k].JObject? then
        Some(seq(|items|, k requires 0 <= k < |items| && items[k].JObject? => Tag(items[k].members, sc)))
      else None
    case JObject(m) => if |m| == 0 then Some([]) else None
    case JString(s) => if |s| == 0 then Some([]) else None
    case _ => None
  }

  /** The body of the `try` for one scenario: the service call, cleaning,
      parsing and tagging; `None` when any of them raises. */
  function Contribution(sc: Scenario, reply: Reply, parse: string -> Parsed): (r: Option<seq<Dict>>)
    ensures reply.ServiceError? ==> r.None?
    ensures reply.Answer? && parse(CleanReply(reply.text)).ParseError? ==> r.None?
    ensures reply.Answer? && parse(CleanReply(reply.text)).Parsed?
            ==> r == ScenarioRows(parse(CleanReply(reply.text)).value, sc)
    ensures r.Some? ==> forall k :: 0 <= k < |r.value| ==>
              Get(r.value[k], ScenarioName) == Some(sc.name) && Get(r.value[k], TestType) == Some(sc.testType)
  {
    match reply
    case ServiceError => None
    case Answer(text) =>
      match parse(CleanReply(text))
      case ParseError => None
      case Parsed(v) => ScenarioRows(v, sc)
  }

  /** One pass of the loop: the keys read outside the `try`, whose failure
      aborts the call, then the rows the `try` adds, none when it fails. */
  function ScenarioOutcome(item: Json, reply: Reply, parse: string -> Parsed): (r: Result<seq<Dict>, PlanError>)
    ensures r.Err? <==> ReadScenario(item).Err?
  {
    match ReadScenario(item)
    case Err(e) => Err(e)
    case Ok(sc) => Ok(Contribution(sc, reply, parse).GetOr([]))
  }

  /** The outcome of every scenario, scenario `k` with the reply to the
      `k`-th call. A pass has no effect beyond its outcome, so gathering
      these and stopping at the first error gives what the loop gives. */
  function Outcomes(items: seq<Json>, replies: nat -> Reply, parse: string -> Parsed)
    : seq<Result<seq<Dict>, PlanError>>
  {
    seq(|items|, k requires 0 <= k < |items| => ScenarioOutcome(items[k], replies(k), parse))
  }

  /** The rows of the first `n` outcomes, concatenated in order, or the
      first error among them. */
  function Gather(outcomes: seq<Result<seq<Dict>, PlanError>>, n: nat): (r: Result<seq<Dict>, PlanError>)
    requires n <= |outcomes|
    ensures r.Ok? <==> forall k :: 0 <= k < n ==> outcomes[k].Ok?
    decreases n
  {
    if n == 0 then Ok([])
    else
      var m: nat := n - 1;
      var prev := Gather(outcomes, m);
      if prev.Err? then prev
      else if outcomes[m].Err? then Err(outcomes[m].error)
      else Ok(prev.value + outcomes[m].value)
  }

  /** `generate_data_for_plan(plan, rows_per_scenario)`. The row count and
      the plan's `'fields'` only shape the prompts, which are not modelled. */
  function GenerateDataForPlan(plan: Json, replies: nat -> Reply, parse: string -> Parsed)
    : (r: Result<seq<Dict>, PlanError>)
    ensures ScenarioItems(plan).Err? ==> r == Err(ScenarioItems(plan).error)
    ensures ScenarioItems(plan).Ok? ==>
              (r.Ok? <==> forall k :: 0 <= k < |ScenarioItems(plan).value| ==> ReadScenario(ScenarioItems(plan).value[k]).Ok?)
    ensures ScenarioItems(plan) == Ok([]) ==> r == Ok([])
  {
    match ScenarioItems(plan)
    case Err(e) => Err(e)
    case Ok(items) =>
      OutcomesOk(items, replies, parse);
      Gather(Outcomes(items, replies, parse), |items|)
  }

  /** A scenario's outcome is an error exactly when its keys cannot be read. */
  lemma OutcomesOk(items: seq<Json>, replies: nat -> Reply, parse: string -> Parsed)
    ensures var outcomes := Outcomes(items, replies, parse);
            forall k :: 0 <= k < |items| ==> (outcomes[k].Ok? <==> ReadScenario(items[k]).Ok?)
  {
    var outcomes := Outcomes(items, replies, parse);
    forall k | 0 <= k < |items|
      ensures outcomes[k].Ok? <==> ReadScenario(items[k]).Ok?
    {
      assert outcomes[k] == ScenarioOutcome(items[k], replies(k), parse);
    }
  }

  // ---------------------------------------------------------------------------
  // Properties of gathering.

  /** The lists of `parts` joined in order, an independent statement of what
      the loop's `extend` calls build. */
  function Concat(parts: seq<seq<Dict>>): seq<Dict> {
    if |parts| == 0 then [] else parts[0] + Concat(parts[1..])
  }

  /** Joining one more list at the end appends it. */
  lemma {:induction false} ConcatSnoc(parts: seq<seq<Dict>>, p: seq<Dict>)
    ensures Concat(parts + [p]) == Concat(parts) + p
  {
    if |parts| > 0 {
      assert (parts + [p])[1..] == parts[1..] + [p];
      ConcatSnoc(parts[1..], p);
    }
  }

  /** Every row of every list is in the join. */
  lemma {:induction false} ConcatHolds(parts: seq<seq<Dict>>, k: nat, i: nat)
    requires k < |parts| && i < |parts[k]|
    ensures parts[k][i] in Concat(parts)
  {
    if k == 0 {
      assert Concat(parts)[i] == parts[0][i];
    } else {
      ConcatHolds(parts[1..], k - 1, i);
    }
  }

  /** The rows an outcome adds: its rows, or none for an error. */
  function RowsOf(o: Result<seq<Dict>, PlanError>): seq<Dict> {
    if o.Ok? then o.value else []
  }

  /** The rows of the first `n` outcomes, as lists. */
  function Parts(outcomes: seq<Result<seq<Dict>, PlanError>>, n: nat): (r: seq<seq<Dict>>)
    requires n <= |outcomes|
    ensures |r| == n && forall k :: 0 <= k < n ==> r[k] == RowsOf(outcomes[k])
  {
    seq(n, k requires 0 <= k < n => RowsOf(outcomes[k]))
  }

  /** A gathering that succeeds is the join of the outcomes' rows. */
  lemma {:induction false} GatherConcat(outcomes: seq<Result<seq<Dict>, PlanError>>, n: nat)
    requires n <= |outcomes| && Gather(outcomes, n).Ok?
    ensures Gather(outcomes, n).value == Concat(Parts(outcomes, n))
    decreases n
  {
    if n > 0 {
      var m: nat := n - 1;
      GatherConcat(outcomes, m);
      assert Parts(outcomes, n) == Parts(outcomes, m) + [RowsOf(outcomes[m])];
      ConcatSnoc(Parts(outcomes, m), RowsOf(outcomes[m]));
    }
  }

  /** An error among the first `n` outcomes aborts the gathering. */
  lemma {:induction false} GatherAbortsAt(outcomes: seq<Result<seq<Dict>, PlanError>>, n: nat, k: nat)
    requires k < n <= |outcomes| && outcomes[k].Err?
    ensures Gather(outcomes, n).Err?
    decreases n
  {
    var m: nat := n - 1;
    if k < m {
      GatherAbortsAt(outcomes, m, k);
    }
  }

  /** An aborted gathering reports the error of one of its outcomes. */
  lemma {:induction false} GatherAbortWitness(outcomes: seq<Result<seq<Dict>, PlanError>>, n: nat) returns (k: nat)
    requires n <= |outcomes| && Gather(outcomes, n).Err?
    ensures k < n && outcomes[k] == Err(Gather(outcomes, n).error)
    decreases n
  {
    var m: nat := n - 1;
    if Gather(outcomes, m).Err? {
      k := GatherAbortWitness(outcomes, m);
    } else {
      k := m;
    }
  }

  /** Rows are concatenated in scenario order: the rows of the first `n`
      outcomes are a prefix of the rows of the first `m`. */
  lemma {:induction false} GatherInOrder(outcomes: seq<Result<seq<Dict>, PlanError>>, n: nat, m: nat)
    requires n <= m <= |outcomes| && Gather(outcomes, m).Ok?
    ensures Gather(outcomes, n).Ok?
    ensures Gather(outcomes, n).value <= Gather(outcomes, m).value
    decreases m
  {
    if n < m {
      var l: nat := m - 1;
      GatherInOrder(outcomes, n, l);
    }
  }

  /** Every gathered row is a row of one of the outcomes. */
  lemma {:induction false} GatherRowOrigin(outcomes: seq<Result<seq<Dict>, PlanError>>, n: nat, i: nat) returns (k: nat)
    requires n <= |outcomes| && Gather(outcomes, n).Ok? && i < |Gather(outcomes, n).value|
    ensures k < n && outcomes[k].Ok? && Gather(outcomes, n).value[i] in outcomes[k].value
    decreases n
  {
    var m: nat := n - 1;
    var prev := Gather(outcomes, m).value;
    var all := Gather(outcomes, n).value;
    assert all == prev + outcomes[m].value;
    if i < |prev| {
      k := GatherRowOrigin(outcomes, m, i);
      assert all[i] == prev[i];
    } else {
      k := m;
      assert all[i] == outcomes[m].value[i - |prev|];
    }
  }

  // ---------------------------------------------------------------------------
  // Properties of generate_data_for_plan.

  /** `generate_data_for_plan` raises exactly when the plan has no iterable
      `'scenarios'` or some scenario is not a dictionary with the three keys;
      nothing the service returns can make it raise. */
  lemma DataForPlanAborts(plan: Json, replies: nat -> Reply, parse: string -> Parsed)
    ensures GenerateDataForPlan(plan, replies, parse).Err?
            <==> ScenarioItems(plan).Err?
                 || exists k :: 0 <= k < |ScenarioItems(plan).value| && ReadScenario(ScenarioItems(plan).value[k]).Err?
  {
    if ScenarioItems(plan).Ok? {
      var items := ScenarioItems(plan).value;
      var outcomes := Outcomes(items, replies, parse);
      if Gather(outcomes, |items|).Err? {
        var k := GatherAbortWitness(outcomes, |items|);
        assert outcomes[k] == ScenarioOutcome(items[k], replies(k), parse);
      }
      if exists k :: 0 <= k < |items| && ReadScenario(items[k]).Err? {
        var k: nat :| k < |items| && ReadScenario(items[k]).Err?;
        assert outcomes[k] == ScenarioOutcome(items[k], replies(k), parse);
        GatherAbortsAt(outcomes, |items|, k);
      }
    }
  }

  /** The rows scenario `item` adds when its reply is `reply`: the tagged
      rows of the reply, or none when the `try` fails. */
  function Added(item: Json, reply: Reply, parse: string -> Parsed): (r: seq<Dict>)
    ensures ReadScenario(item).Ok? ==> r == Contribution(ReadScenario(item).value, reply, parse).GetOr([])
  {
    RowsOf(ScenarioOutcome(item, reply, parse))
  }

  /** A successful `generate_data_for_plan` returns the rows every scenario
      adds, joined in scenario order. */
  lemma DataForPlanConcat(plan: Json, replies: nat -> Reply, parse: string -> Parsed)
    requires GenerateDataForPlan(plan, replies, parse).Ok?
    ensures var items := ScenarioItems(plan).value;
            GenerateDataForPlan(plan, replies, parse).value
            == Concat(seq(|items|, k requires 0 <= k < |items| => Added(items[k], replies(k), parse)))
  {
    var items := ScenarioItems(plan).value;
    var outcomes := Outcomes(items, replies, parse);
    var added := seq(|items|, k requires 0 <= k < |items| => Added(items[k], replies(k), parse));
    GatherConcat(outcomes, |items|);
    forall k | 0 <= k < |items|
      ensures Parts(outcomes, |items|)[k] == added[k]
    {
      assert outcomes[k] == ScenarioOutcome(items[k], replies(k), parse);
    }
    assert Parts(outcomes, |items|) == added;
  }

  /** No row is lost: every row a scenario adds is returned. */
  lemma DataForPlanKeepsRows(plan: Json, replies: nat -> Reply, parse: string -> Parsed, k: nat, i: nat)
    requires GenerateDataForPlan(plan, replies, parse).Ok?
    requires k < |ScenarioItems(plan).value|
    requires i < |Added(ScenarioItems(plan).value[k], replies(k), parse)|
    ensures Added(ScenarioItems(plan).value[k], replies(k), parse)[i] in GenerateDataForPlan(plan, replies, parse).value
  {
    var items := ScenarioItems(plan).value;
    var parts := seq(|items|, j requires 0 <= j < |items| => Added(items[j], replies(j), parse));
    DataForPlanConcat(plan, replies, parse);
    ConcatHolds(parts, k, i);
  }

  /** Every row of `generate_data_for_plan` is a row the service returned
      for one scenario, tagged with that scenario's name and test type. */
  lemma DataForPlanRowOrigin(plan: Json, replies: nat -> Reply, parse: string -> Parsed, i: nat) returns (k: nat)
    requires GenerateDataForPlan(plan, replies, parse).Ok?
    requires i < |GenerateDataForPlan(plan, replies, parse).value|
    ensures ScenarioItems(plan).Ok? && k < |ScenarioItems(plan).value|
    ensures var sc := ReadScenario(ScenarioItems(plan).value[k]);
            var row := GenerateDataForPlan(plan, replies, parse).value[i];
            && sc.Ok?
            && row in Contribution(sc.value, replies(k), parse).GetOr([])
            && Get(row, ScenarioName) == Some(sc.value.name)
            && Get(row, TestType) == Some(sc.value.testType)
  {
    var items := ScenarioItems(plan).value;
    var outcomes := Outcomes(items, replies, parse);
    k := GatherRowOrigin(outcomes, |items|, i);
    assert outcomes[k] == ScenarioOutcome(items[k], replies(k), parse);
    var sc := ReadScenario(items[k]).value;
    var rows := Contribution(sc, replies(k), parse).GetOr([]);
    var row := Gather(outcomes, |items|).value[i];
    var r :| 0 <= r < |rows| && rows[r] == row;
  }

  /** The reply sequence `replies` with the reply for scenario `k` replaced. */
  function ReplaceReply(replies: nat -> Reply, k: nat, reply: Reply): (r: nat -> Reply)
    ensures r(k) == reply
    ensures forall i :: i != k ==> r(i) == replies(i)
  {
    (i: nat) => if i == k then reply else replies(i)
  }

  /** A reply holding an empty list adds no row. */
  lemma EmptyListAddsNothing(sc: Scenario, empty: string, parse: string -> Parsed)
    requires parse(CleanReply(empty)) == Parsed(JArray([]))
    ensures Contribution(sc, Answer(empty), parse) == Some([])
  {
    var r := ScenarioRows(JArray([]), sc);
    assert r.Some? && |r.value| == 0;
  }

  /** A scenario whose `try` fails contributes exactly what a reply with an
      empty list would, and the scenarios after it are gathered as before. */
  lemma FailedScenarioNeutral(plan: Json, replies: nat -> Reply, parse: string -> Parsed, k: nat, empty: string)
    requires ScenarioItems(plan).Ok? && k < |ScenarioItems(plan).value|
    requires var sc := ReadScenario(ScenarioItems(plan).value[k]);
             sc.Ok? ==> Contribution(sc.value, replies(k), parse).None?
    requires parse(CleanReply(empty)) == Parsed(JArray([]))
    ensures GenerateDataForPlan(plan, replies, parse)
            == GenerateDataForPlan(plan, ReplaceReply(replies, k, Answer(empty)), parse)
  {
    var items := ScenarioItems(plan).value;
    var other := ReplaceReply(replies, k, Answer(empty));
    var before := Outcomes(items, replies, parse);
    var after := Outcomes(items, other, parse);
    forall j | 0 <= j < |items|
      ensures before[j] == after[j]
    {
      assert before[j] == ScenarioOutcome(items[j], replies(j), parse);
      assert after[j] == ScenarioOutcome(items[j], other(j), parse);
      if j != k {
        assert other(j) == replies(j);
      } else if ReadScenario(items[j]).Ok? {
        EmptyListAddsNothing(ReadScenario(items[j]).value, empty, parse);
      }
    }
    assert before == after;
  }

  // ---------------------------------------------------------------------------
  // The entry point's export step.

  /** When `generate_data_for_plan` returns rows, every column layout that
      covers their keys holds both tags, so neither the reorder nor the drop
      raises. */
  lemma ExportHasTags(plan: Json, replies: nat -> Reply, parse: string -> Parsed, columns: seq<string>)
    requires GenerateDataForPlan(plan, replies, parse).Ok?
    requires !FrameEmpty(|GenerateDataForPlan(plan, replies, parse).value|, columns)
    requires forall row, key :: row in GenerateDataForPlan(plan, replies, parse).value && key in Keys(row)
               ==> key in columns
    ensures FullReportColumns(columns).Some? && DataOnlyColumns(columns).Some?
  {
    var rows := GenerateDataForPlan(plan, replies, parse).value;
    var k := DataForPlanRowOrigin(plan, replies, parse, 0);
    assert Get(rows[0], ScenarioName).Some? && Get(rows[0], TestType).Some?;
  }
}
